=== FILE: README.md ===
# Mock business-analytics service, modelled in Dafny

The system is a demonstration "ask a business question" service. A Node.js
backend (`be/main.js`) keeps sessions and inquiries in two in-memory stores.
Each submitted question starts a background pipeline: processing, time frame,
a query text chosen by keyword rules, a fixed dataset with a chart choice,
and a canned narrative. The pipeline broadcasts the whole record after every
step. Once the record is `done`, the backend streams the narrative one
character per timer tick. A React front end (`fe/src`) folds the broadcasts
into its inquiry list and starts the stream when a record is done. It
retries session creation a bounded number of times and refuses empty
submissions. It also sorts the data table and picks the chart component for
the chart type.

The model is functional. The stores are maps and every handler is a function
from state to state plus reply. `processInquiry` returns the final record
with the trace of broadcast snapshots. Everything the source leaves to chance
or to the environment is an argument:

- `Math.random()` draws are the fields of `Lifecycle.Draws`: the table index,
  `generateMockSQL`'s own index, the chart coins, and whether the chart step
  throws into its fallback.
- `uuidv4()` results are identifiers passed to the handlers. Lemmas about the
  invariant assume they are fresh.
- `new Date()` readings are clock arguments. `updated` is monotone when the
  readings are.
- `io.emit` appends the record to `Server.Backend.broadcasts`.
- Network calls in the browser are replaced by their outcomes.
  `localeCompare` is an opaque ordering argument.

Modules, one per file: `Values` (JavaScript values and objects as ordered
association lists), `Text` (lower-casing, `includes`, `trim`, concatenation),
`MockData` (the fixed tables), `Analytics` (the four helpers), `Lifecycle`
(`processInquiry`), `Server` (the stores and handlers), `Client` (`App.tsx`
state logic), `TableView` and `ChartView`.

Three points of the code's timing shape the model:

- One run broadcasts five snapshots: processing, time frame, query, data,
  narrative.
- `processInquiry` runs synchronously up to its first `await`. The first
  phase therefore happens before the 202 reply is sent. `SubmitInquiry`
  stores a record that is already `processing` and has been broadcast once,
  not one in status `created`.
- The stream handler (be/main.js:546-568) has no disconnect handling, so
  cancellation is not modelled.

## Model

| member | source | states |
|---|---|---|
| Values.GetPresent | be/main.js:270-277 | A property read finds a value exactly when the key is one of the object's own keys |
| Values.Put | be/main.js:277 | Assigning `obj[k] = v` makes `k` read `v` and leaves every other key's value as it was. Under `__proto__` the inherited setter ignores a number, so the own properties do not change |
| Values.PutKeys | be/main.js:277 | Assignment keeps key order: an existing key stays in place, a new key goes last, and `__proto__` adds no key |
| Values.PutUnique | be/main.js:277 | Assignment never creates a duplicate property |
| Text.ToLowerIdempotent | be/main.js:297 | Lower-casing is length-preserving and idempotent, so an already lower-cased question classifies the same |
| Text.ConcatSnoc | fe/src/App.tsx:206-212 | Appending one received piece appends its text to the concatenation |
| Text.TrimEmpty | fe/src/App.tsx:185 | A string trims to empty exactly when every character is ECMAScript white space |
| MockData.MockBusinessDataUsable | be/main.js:48-245 | Every shipped table has a first row with at least two properties, which the fallback chart reads |
| Analytics.AddProductsUntouched | be/main.js:266-279 | A key that no product writes into a month row keeps the value the row started with |
| Analytics.AddProductsLastWins | be/main.js:266-279 | When several products write the same key, the cell holds the series value of the last of them in input order |
| Analytics.TransformPivot | be/main.js:248-286 | With a "month" x-axis and some `monthlySales` array, the result has exactly 6 rows. Row i has `month = Months[i]` unless a product named "month" overwrites it. Each name other than `__proto__` maps to the last matching product's `monthlySales[i]`. Names whose series are too short are absent, and so is `__proto__` |
| Analytics.TransformIdentity | be/main.js:250-262 | With no config, a non-"month" x-axis, or no `monthlySales` array, the input is returned unchanged (see also be/main.js:289) |
| Analytics.SalesPassThrough | be/main.js:250-262 | The sales rows pass through unchanged for any config, including the sales chart's "month" x-axis (see also be/main.js:289) |
| Analytics.SelectTablePriority | be/main.js:296-318 | Case-insensitive keyword priority: sales words beat customer words, which beat product words. The random pick decides only when no keyword occurs |
| Analytics.KeywordsPickQuery | be/main.js:296-326 | Whatever the random pick, a question with a sales word gets the sales query text, else one with a customer word the customers text, else one with a product word the products text; only a question with none gets the drawn table's text |
| Analytics.SelectTableIgnoresCase | be/main.js:297 | Questions equal up to ASCII case select the same table |
| Analytics.SqlForInjective | be/main.js:320-326 | Each table has one fixed query text and different tables have different texts; the `default` arm cannot be reached |
| Analytics.NarrativePerTable | be/main.js:424-435 | The narrative depends only on the table: two questions get the same text for the same table, and different tables get different texts |
| Analytics.ChartChoices | be/main.js:333-392 | Sales gives multiLine/multiBar with a month x-axis and 3 series. Customers gives bar/pie over `name` with only `annualSpend`. Products gives bar/line/multiLine, with a month x-axis exactly for multiLine. The series list is never empty |
| Lifecycle.ChartStepShape | be/main.js:634-670 | The chart always has a series. Without a throw, the rows are the raw rows transformed under the chart's own config (unchanged, or the six month rows of the pivot under a "month" x-axis), and the chart type is one the table allows: multiLine or multiBar for sales, bar or pie for customers, bar, line or multiLine for products. After a throw the raw rows get a bar chart whose x-axis is the first property of the first row and whose single series is its second |
| Lifecycle.AnalyzeFollowsDrawnTable | be/main.js:609-698 | The stored narrative equals a table's narrative exactly when that table was drawn. The rows are the drawn table's rows or, without a throw, their six-row pivot under the stored chart config. The query is one of the three fixed texts |
| Lifecycle.CustomerRowsKept | be/main.js:634-670 | The customer rows reach the chart unchanged, with or without a throw in the chart step, since the customer chart's x-axis is `name` |
| Lifecycle.SqlAndDataMayDisagree | be/main.js:609-698 | Any question mentioning "sales" gets the sales query. When the table draw at line 612 yields customers, the same run stores the customer rows and the customer narrative, which differs from the sales one |
| Lifecycle.ProductsPivotWhenMultiLine | be/main.js:373-392 | For product rows carrying a series, a multiLine chart comes with 6 pivoted rows and any other chart keeps the rows unchanged (see also be/main.js:646) |
| Lifecycle.ShippedProductsHaveSeries | be/main.js:48-245 | The shipped product table carries `monthlySales`, so the pivot applies to it |
| Lifecycle.ProcessInquiryTrace | be/main.js:572-713 | One run broadcasts exactly 5 snapshots: processing four times, then done. The last snapshot is the stored record and each `updated` is the matching clock reading (see also be/main.js:716-717) |
| Lifecycle.PhaseOrder | be/main.js:580-702 | From a blank record, fields appear in order: time frame, then query, then data with chart type and config, then narrative. Each field is still absent in every snapshot before its own phase |
| Lifecycle.NeverCleared | be/main.js:580-702 | No snapshot clears or rewrites a field an earlier snapshot had |
| Lifecycle.UpdatedNonDecreasing | be/main.js:581-701 | With a non-decreasing clock, `updated` never decreases across the broadcasts |
| Lifecycle.ProcessInquiryResult | be/main.js:595-701 | The finished record holds the fixed time frame, the query, the data, the chart and the narrative, with identity fields unchanged |
| Server.EmptyValid | be/main.js:44-45 | The empty stores satisfy the store invariant |
| Server.CreateSession | be/main.js:440-449 | Replies 201 with the identifier. The session is stored with an empty inquiry list and nothing else changes |
| Server.CreateThenGetSession | be/main.js:440-460 | A session just created is returned by its lookup |
| Server.GetSession | be/main.js:452-460 | 404 exactly when the identifier is not stored, otherwise 200 with the stored session |
| Server.ErrorReplies | be/main.js:456-524 | The error replies answer 404 exactly for an unknown session or inquiry and 400 for a missing question or an unfinished record, each with its own message |
| Server.SubmitInquiry | be/main.js:463-492 | Any error leaves the state unchanged. Success adds exactly one inquiry, appends its id to the submitted session's list and leaves that session otherwise as it was. No other session or inquiry changes |
| Server.SubmitInquiryReply | be/main.js:463-492 | 404 exactly for an unknown session. Otherwise 400 exactly for a missing or empty question, so 404 is checked first. Otherwise 202 with the new identifier. Whitespace-only questions are accepted |
| Server.SubmitInquiryStores | be/main.js:477-491 | The stored record has the untrimmed question and the submitted session, and no phase results. It is already processing. Its id is appended to the session's list and it is broadcast once (see also be/main.js:580-582) |
| Server.FinishWith | be/main.js:593-702 | The later phases change only that record. They append four broadcasts, the last being the stored record, which is done and holds the query and the narrative |
| Server.GetInquiry | be/main.js:495-503 | 404 exactly when the identifier is not stored, otherwise 200 with the stored record |
| Server.StreamAnswer | be/main.js:506-569 | 404 exactly for an unknown id and 400 exactly for a record that is not done. A done record with a narrative is always streamed: one write per character in index order, then the end, so the writes concatenate to `textualAnswer`. A done record without one crashes |
| Server.StreamWritesConcat | be/main.js:548-551 | The single-character writes put back together give the narrative |
| Server.CreateSessionValid | be/main.js:440-449 | A session under an unused identifier keeps the stores consistent |
| Server.SubmitInquiryValid | be/main.js:463-492 | A submission under an unused inquiry identifier keeps the stores consistent |
| Server.FinishProcessingValid | be/main.js:572-713 | Finishing a pipeline keeps the stores consistent; a done record has its narrative |
| Server.ValidNeverCrashes | be/main.js:518-536 | In a consistent state a done record always has the narrative the stream handler reads |
| Server.SubmitThenFinish | be/main.js:463-492 | After submission the record is not done. After the pipeline it is done, holding the question, the drawn table's narrative and the keyword-rule query, with five broadcasts added in total (see also be/main.js:572-713) |
| Server.SubmitThenFinishRunsPipeline | be/main.js:572-713 | Submission followed by the later phases adds exactly the broadcasts of one `processInquiry` run, in order, and stores its final record. So the trace, order and monotonicity lemmas about `processInquiry` hold of the server's broadcasts |
| Client.UpsertExisting | fe/src/App.tsx:143-145 | A known id is replaced at each position where it occurs; the length and id order are unchanged and other entries stay put |
| Client.UpsertNew | fe/src/App.tsx:144-146 | An unseen id is appended at the end and the list grows by exactly one |
| Client.UpsertLookup | fe/src/App.tsx:143-146 | Seen through lookup by id, the reducer is a map update: the new record is found and other lookups are unchanged |
| Client.UpsertUnique | fe/src/App.tsx:143-146 | Unique ids stay unique; the id multiset gains the incoming id only if it was new |
| Client.OnInquiryUpdated | fe/src/App.tsx:142-155 | Logs "Inquiry updated: id - status" and records the inquiry; every other id looks up as before and nothing but the list and the log changes. It starts streaming exactly when the status is done and the streamed text is absent or empty |
| Client.ApplyChunksConcat | fe/src/App.tsx:206-212 | After at least one piece, the stored text is the in-order concatenation of the pieces received; other entries are untouched |
| Client.StartStreaming | fe/src/App.tsx:204-219 | The stored text is the concatenation of the pieces (unchanged when there are none). Exactly one entry is logged: the completion message without a failure, the error message with the error text after one. Nothing else changes |
| Client.StreamedTextIsAnswer | fe/src/App.tsx:204-219 | When the reader delivers the stream handler's writes for a done record, however regrouped, the stored text equals the record's narrative (see also be/main.js:546-568) |
| Client.NoSecondStream | fe/src/App.tsx:152-154 | Once an inquiry's streamed text is non-empty, a later done broadcast does not start another stream |
| Client.InitializeSessionBounded | fe/src/App.tsx:107-127 | Start-up makes at most 3 `createSession` calls |
| Client.InitializeSessionEnds | fe/src/App.tsx:107-131 | Every start-up ends in an established session or in giving up, with the loading flag off |
| Client.InitializeSessionSchedule | fe/src/App.tsx:107-127 | The first successful call establishes the session. After failed call k the wait is 1000·2^k ms. The banner appears exactly when all three calls fail |
| Client.Startup | fe/src/App.tsx:133-140 | A stored non-empty id is reused and no session is created; otherwise start-up begins with attempt 1 |
| Client.SubmitQuestion | fe/src/App.tsx:184-202 | No request exactly when there is no session id or the question trims to empty, and then only the refusal is logged. Otherwise the untrimmed question is sent and loading ends. On success the question box is emptied, the new id becomes the latest and "Inquiry submitted: id" is logged; on failure "Error submitting inquiry" is logged. Nothing else changes |
| Client.SubmittedQuestionAccepted | fe/src/App.tsx:185-192 | A question the browser sends is never refused by the server as missing (see also be/main.js:471-473) |
| Client.ClearResults | fe/src/App.tsx:238-243 | The list, streamed text, latest id and log are emptied; every other field, the session and the question box included, is kept |
| Client.ClearThenDoneRestreams | fe/src/App.tsx:238-243 | After clearing, a done broadcast starts streaming again and is the only entry (see also fe/src/App.tsx:142-155) |
| TableView.Headers | fe/src/components/TableRenderer.tsx:23-25 | Nothing for missing or empty data. Otherwise the headers are exactly the first row's own keys, in insertion order, one per property and pairwise distinct |
| TableView.InitiallyUnsorted | fe/src/components/TableRenderer.tsx:27-54 | The table opens with no sort column and shows the rows as given; the first click on a header sorts that column ascending |
| TableView.HandleSortSameKey | fe/src/components/TableRenderer.tsx:49-51 | Clicking the current column keeps it and flips the direction; two clicks restore the state |
| TableView.HandleSortNewKey | fe/src/components/TableRenderer.tsx:52-54 | Clicking another column selects it ascending; clicking it again makes it descending |
| TableView.InsertPermutes | fe/src/components/TableRenderer.tsx:33 | Placing one row adds exactly that row to the multiset |
| TableView.SortPermutes | fe/src/components/TableRenderer.tsx:33-44 | The sorted copy has the same length and the same multiset of rows as the input |
| TableView.SortedDataPermutes | fe/src/components/TableRenderer.tsx:30-47 | The displayed rows rearrange the input; with no sort key they are the input itself |
| TableView.InsertRanked | fe/src/components/TableRenderer.tsx:37-39 | Inserting a numeric row into a numerically ordered list keeps it ordered |
| TableView.SortRanked | fe/src/components/TableRenderer.tsx:33-39 | On an all-numeric column the sorted copy is ordered by value, negated when descending |
| TableView.SortedNumericColumn | fe/src/components/TableRenderer.tsx:37-39 | On an all-numeric column, ascending gives non-decreasing values and descending non-increasing ones |
| ChartView.RenderAsWritten | fe/src/components/ChartRenderer.tsx:17-29 | The dispatch as written: nothing when data, a non-empty chart type or the config is missing. A component only for a server chart type, and otherwise an inherited member of the lookup object, found under its own name |
| ChartView.Render | fe/src/components/ChartRenderer.tsx:17-29 | Intended dispatch (see ## Findings): nothing when data, a non-empty chart type or the config is missing. Only the five server chart types render a component, and no inherited member is ever rendered |
| ChartView.ServerTypesRender | fe/src/components/ChartRenderer.tsx:19-25 | Every chart type the server assigns, fallback bar included, renders: bar and multiBar with the bar component, line and multiLine with the line component, pie with the pie component (see also be/main.js:345, be/main.js:356, be/main.js:374, be/main.js:383, be/main.js:656) |
| ChartView.OtherNamesRenderNothing | fe/src/components/ChartRenderer.tsx:27-29 | A string naming no server chart type renders nothing |
| ChartView.AsWrittenDiffersOnlyOnInherited | fe/src/components/ChartRenderer.tsx:27-29 | The lookup as written and the intended dispatch differ exactly on the names inherited from `Object.prototype` |
| ChartView.InheritedNameRenders | fe/src/components/ChartRenderer.tsx:27-29 | As written, the type "toString" renders the inherited method instead of nothing |

## Left out

- HTTP, socket.io and Express wiring, CORS, body parsing, the logger middleware and the duplicate monitoring routes: transport with no stateable logic beyond the handler replies.
- Delays, `setInterval` timing and the progress logging in the stream handler: only the order of mutations, broadcasts and writes is modelled. Console logging is left out throughout.
- Interleaving of several pipelines: phases 2 to 5 of one record run as one step (`Server.FinishWith`). Their intermediate records are the snapshots in the broadcast trace. A pipeline writes only its own record, which `FinishWith`'s frame states.
- Identifier collisions: the handlers overwrite like the source. The invariant lemmas assume fresh identifiers, standing in for `uuidv4`.
- Identifiers that name `Object.prototype` members (for example a session id "constructor") are not modelled. The server's stores and the browser's `streamedText` object are modelled as maps of own entries. The browser writes that object with computed keys in an object literal, which define own properties even for `__proto__`. Only its reads of such a name would find an inherited value.
- Non-string `question` values (numbers, objects) in a submission body are not modelled: a question is absent, null or a string.
- The pipeline's dataset is an argument (`MockData.Dataset`) that must give every table a first row with two properties. `MockData.MockBusinessData` is the shipped data. What JavaScript does on an empty table (an exception inside the catch block) is not modelled.
- When the chart step throws is not modelled: `Draws.transformThrows` chooses the fallback branch.
- Floating point: unit prices are integer cents and numbers are integers, so NaN, infinities and fractional sort keys are not modelled.
- Strings are sequences of characters, not UTF-16 code units. Lower-casing is ASCII only, and `localeCompare` is an opaque argument.
- Object key order for integer-like keys (which JavaScript lists first) is not modelled: keys keep insertion order.
- `TableView.SortedNumericColumn` covers only all-numeric columns. With mixed or string values, only the permutation property is stated, because the result depends on the string ordering passed in and on `Array.prototype.sort` with a possibly inconsistent comparator.
- Values.Put: assigning an array under `__proto__` would re-parent the object and is not modelled; the pivot only assigns numbers. Reads are of own properties, so `row.__proto__` on a pivot row, which JavaScript answers with `Object.prototype`, reads as absent.
- The narrative texts are carried as literals; only that they differ from each other is proved, not what they say.
- The `default` arms of `generateMockSQL`, `determineChartType` and `generateTextualAnswer` are unreachable, because the table is one of three constructors.
- Client.NoSecondStream: the browser checks a ref copy of the streamed text that an effect refreshes only after each render; the model reads the streamed text itself, so the window in which a second done broadcast could see the stale ref is not modelled.
- The browser's session retry button (`retrySession`), the example-question handler, the 404 retry inside `submitInquiryApi`, `localStorage` writes, React rendering and the chart components are UI or network plumbing.

## Findings

| source | as written | input that shows it | evidently intended | confidence | as-written member | corrected member |
|---|---|---|---|---|---|---|
| fe/src/components/ChartRenderer.tsx:27-29 | The component is looked up with `chartComponents[chartType]` on a plain object literal, so members inherited from `Object.prototype` are found and are truthy | chart type "toString" (likewise "constructor", "valueOf", "__proto__") | Any chart type other than the five listed renders nothing | medium (the server only sends the five listed types); not executed | ChartView.RenderAsWritten, ChartView.InheritedNameRenders | ChartView.Render, ChartView.OtherNamesRenderNothing |

=== FILE: analytics.dfy ===
/** The server's pure helpers: the product time-series pivot, the keyword
    table choice with its fixed SQL text, the per-table chart choice, and the
    per-table narrative. Every `Math.random()` draw is an explicit argument. */
module Analytics {
  import opened Values
  import opened Text
  import opened MockData

  /** An axis: the property key it plots and its display label (`caption`). */
  datatype Axis = Axis(key: string, caption: string)
  datatype YAxis = YAxis(key: string, caption: string, color: string)
  datatype ChartConfig = ChartConfig(xAxis: Axis, yAxes: seq<YAxis>)

  /** The five chart types of the server's `chartTypes` list. */
  datatype ChartType = Bar | Line | MultiBar | MultiLine | Pie
  {
    /** The string the server sends for this chart type. */
    function Name(): string
    {
      match this
      case Bar => "bar"
      case Line => "line"
      case MultiBar => "multiBar"
      case MultiLine => "multiLine"
      case Pie => "pie"
    }
  }

  datatype ChartInfo = ChartInfo(chartType: ChartType, config: ChartConfig)

  // ---------------------------------------------------------------------------
  // transformProductData

  /** The time dimension of the pivot. */
  const Months: seq<string> := ["Jan", "Feb", "Mar", "Apr", "May", "Jun"]

  predicate HasMonthlySales(row: Row)
  {
    Get(row, "monthlySales").Some? && Get(row, "monthlySales").value.Series?
  }

  /** Whether `product` writes a cell into pivot row `i`: it has a truthy name,
      a `monthlySales` array, and that array reaches index `i`. */
  predicate Contributes(product: Row, i: nat)
  {
    && Truthy(Get(product, "name"))
    && HasMonthlySales(product)
    && i < |Get(product, "monthlySales").value.xs|
  }

  /** The property name a product's cell is stored under (`String(product.name)`). */
  function CellKey(product: Row): string
  {
    ToText(Get(product, "name"))
  }

  function SalesAt(product: Row, i: nat): int
    requires Contributes(product, i)
  {
    Get(product, "monthlySales").value.xs[i]
  }

  /** `data.forEach(...)` for pivot row `i`: the products are visited in input
      order, each contributing one assignment to the row object. */
  function AddProducts(point: Row, data: seq<Row>, i: nat): Row
    decreases |data|
  {
    if |data| == 0 then point
    else
      var before := AddProducts(point, data[..|data| - 1], i);
      var p := data[|data| - 1];
      if Contributes(p, i) then Put(before, CellKey(p), Num(SalesAt(p, i))) else before
  }

  function PivotRow(data: seq<Row>, i: nat): Row
    requires i < |Months|
  {
    AddProducts([Field("month", Str(Months[i]))], data, i)
  }

  /** The guard of the pivot: a config whose x-axis key is "month", and at
      least one row carrying a `monthlySales` array. */
  predicate ShouldPivot(data: seq<Row>, config: Option<ChartConfig>)
  {
    && config.Some?
    && config.value.xAxis.key == "month"
    && exists j :: 0 <= j < |data| && HasMonthlySales(data[j])
  }

  function TransformProductData(data: seq<Row>, config: Option<ChartConfig>): seq<Row>
  {
    if ShouldPivot(data, config) then
      seq(|Months|, i requires 0 <= i < |Months| => PivotRow(data, i))
    else data
  }

  /** A product writes a cell under key `k` into pivot row `i`; a product
      named `__proto__` writes nothing, its assignment being ignored. */
  predicate WritesKey(product: Row, i: nat, k: string)
  {
    Contributes(product, i) && CellKey(product) == k && k != ProtoKey
  }

  /** One more product changes the cell under `k` only if it writes under `k`. */
  lemma AddProductsStep(point: Row, data: seq<Row>, i: nat, k: string)
    requires |data| > 0
    ensures var last := data[|data| - 1];
      Get(AddProducts(point, data, i), k)
        == if WritesKey(last, i, k) then Some(Num(SalesAt(last, i)))
           else Get(AddProducts(point, data[..|data| - 1], i), k)
  {
  }

  /** A key no product writes keeps the cell the row started with. */
  lemma {:induction false} AddProductsUntouched(point: Row, data: seq<Row>, i: nat, k: string)
    requires forall j :: 0 <= j < |data| ==> !WritesKey(data[j], i, k)
    ensures Get(AddProducts(point, data, i), k) == Get(point, k)
    decreases |data|
  {
    if |data| > 0 {
      AddProductsStep(point, data, i, k);
      AddProductsUntouched(point, data[..|data| - 1], i, k);
    }
  }

  /** A key several products write holds the value of the LAST of them. */
  lemma {:induction false} AddProductsLastWins(point: Row, data: seq<Row>, i: nat, k: string, j: nat)
    requires j < |data| && WritesKey(data[j], i, k)
    requires forall j' :: j < j' < |data| ==> !WritesKey(data[j'], i, k)
    ensures Get(AddProducts(point, data, i), k) == Some(Num(SalesAt(data[j], i)))
    decreases |data|
  {
    AddProductsStep(point, data, i, k);
    if j < |data| - 1 {
      var prefix := data[..|data| - 1];
      assert prefix[j] == data[j];
      forall j' | j < j' < |prefix| ensures !WritesKey(prefix[j'], i, k) {
        assert prefix[j'] == data[j'];
      }
      AddProductsLastWins(point, prefix, i, k, j);
    }
  }

  /** The pivot always has one row per month, whatever the number of products.
      Row `i` holds `month = Months[i]` and, for every name, the series value
      of the last product with that name whose series reaches `i`; names no
      product writes into row `i` are absent from it. */
  lemma TransformPivot(data: seq<Row>, config: Option<ChartConfig>)
    requires ShouldPivot(data, config)
    ensures |TransformProductData(data, config)| == |Months| == 6
    ensures forall i, k :: 0 <= i < 6 && k != "month"
              && (forall j :: 0 <= j < |data| ==> !WritesKey(data[j], i, k))
              ==> Get(TransformProductData(data, config)[i], k) == None
    ensures forall i :: 0 <= i < 6
              && (forall j :: 0 <= j < |data| ==> !WritesKey(data[j], i, "month"))
              ==> Get(TransformProductData(data, config)[i], "month") == Some(Str(Months[i]))
    ensures forall i, j, k :: 0 <= i < 6 && 0 <= j < |data| && WritesKey(data[j], i, k)
              && (forall j' :: j < j' < |data| ==> !WritesKey(data[j'], i, k))
              ==> Get(TransformProductData(data, config)[i], k) == Some(Num(SalesAt(data[j], i)))
  {
    var r := TransformProductData(data, config);
    forall i, k | 0 <= i < 6 && (forall j :: 0 <= j < |data| ==> !WritesKey(data[j], i, k))
      ensures Get(r[i], k) == if k == "month" then Some(Str(Months[i])) else None
    {
      AddProductsUntouched([Field("month", Str(Months[i]))], data, i, k);
    }
    forall i, j, k | 0 <= i < 6 && 0 <= j < |data| && WritesKey(data[j], i, k)
        && (forall j' :: j < j' < |data| ==> !WritesKey(data[j'], i, k))
      ensures Get(r[i], k) == Some(Num(SalesAt(data[j], i)))
    {
      AddProductsLastWins([Field("month", Str(Months[i]))], data, i, k, j);
    }
  }

  /** Without a "month" x-axis, or without any `monthlySales` array, the rows
      are returned untouched. */
  lemma TransformIdentity(data: seq<Row>, config: Option<ChartConfig>)
    requires || config.None?
             || config.value.xAxis.key != "month"
             || (forall j :: 0 <= j < |data| ==> !HasMonthlySales(data[j]))
    ensures TransformProductData(data, config) == data
  {
  }

  /** A sales row has no `monthlySales` property. */
  lemma SalesRowNoSeries(month: string, revenue: int, expenses: int, profit: int, region: string)
    ensures !HasMonthlySales(SalesRow(month, revenue, expenses, profit, region))
  {
    var r := SalesRow(month, revenue, expenses, profit, region);
    assert Keys(r) == ["month", "revenue", "expenses", "profit", "region"];
    GetPresent(r, "monthlySales");
  }

  /** The sales rows have no `monthlySales`, so they pass through unchanged even
      though the sales chart's x-axis is "month". */
  lemma SalesPassThrough(config: Option<ChartConfig>)
    ensures TransformProductData(SalesRows, config) == SalesRows
  {
    forall j | 0 <= j < |SalesRows| ensures !HasMonthlySales(SalesRows[j]) {
      var f := SalesFigures[j];
      SalesRowNoSeries(f.0, f.1, f.2, f.3, f.4);
    }
  }

  // ---------------------------------------------------------------------------
  // generateMockSQL

  /** The keyword rules, highest priority first. */
  const KeywordRules: seq<(Table, seq<string>)> := [
    (Sales, ["sales", "revenue", "profit"]),
    (Customers, ["customer", "client"]),
    (Products, ["product", "subscription"])
  ]

  predicate MentionsAny(q: string, words: seq<string>)
  {
    exists w :: w in words && Contains(q, w)
  }

  /** The table of the first rule one of whose keywords occurs in `q`. */
  function FirstMatch(q: string, rules: seq<(Table, seq<string>)>): Option<Table>
  {
    if |rules| == 0 then None
    else if MentionsAny(q, rules[0].1) then Some(rules[0].0)
    else FirstMatch(q, rules[1..])
  }

  /** The table `generateMockSQL` settles on; `pick` is its own random draw. */
  function SelectTable(question: string, pick: TableIndex): Table
  {
    match FirstMatch(ToLower(question), KeywordRules)
    case Some(t) => t
    case None => TableTypes[pick]
  }

  /** The fixed query texts. */
  const SalesSql: string := "SELECT month, revenue, expenses, profit, region FROM sales WHERE region IN ('North', 'South') ORDER BY month ASC"
  const CustomersSql: string := "SELECT name, segment, annualSpend, loyaltyYears FROM customers ORDER BY annualSpend DESC"
  const ProductsSql: string := "SELECT id, name, category, unitPrice FROM products ORDER BY unitPrice ASC"

  /** The one fixed query text of each table. */
  function SqlFor(t: Table): string
  {
    match t
    case Sales => SalesSql
    case Customers => CustomersSql
    case Products => ProductsSql
  }

  function GenerateMockSql(question: string, pick: TableIndex): string
  {
    SqlFor(SelectTable(question, pick))
  }

  lemma MentionsAnyOf3(q: string, a: string, b: string, c: string)
    ensures MentionsAny(q, [a, b, c]) <==> Contains(q, a) || Contains(q, b) || Contains(q, c)
  {
    if Contains(q, a) { assert a in [a, b, c]; }
    if Contains(q, b) { assert b in [a, b, c]; }
    if Contains(q, c) { assert c in [a, b, c]; }
  }

  lemma MentionsAnyOf2(q: string, a: string, b: string)
    ensures MentionsAny(q, [a, b]) <==> Contains(q, a) || Contains(q, b)
  {
    if Contains(q, a) { assert a in [a, b]; }
    if Contains(q, b) { assert b in [a, b]; }
  }

  /** Keyword priority, case-insensitively: sales words beat customer words,
      which beat product words; the random pick decides only when no keyword
      occurs at all. */
  lemma SelectTablePriority(question: string, pick: TableIndex)
    ensures var q := ToLower(question);
      var sales := Contains(q, "sales") || Contains(q, "revenue") || Contains(q, "profit");
      var customers := Contains(q, "customer") || Contains(q, "client");
      var products := Contains(q, "product") || Contains(q, "subscription");
      && (sales ==> SelectTable(question, pick) == Sales)
      && (!sales && customers ==> SelectTable(question, pick) == Customers)
      && (!sales && !customers && products ==> SelectTable(question, pick) == Products)
      && (!sales && !customers && !products ==> SelectTable(question, pick) == TableTypes[pick])
  {
    var q := ToLower(question);
    var r0 := KeywordRules;
    var r1 := r0[1..];
    var r2 := r1[1..];
    assert r0[0] == (Sales, ["sales", "revenue", "profit"]);
    assert r1[0] == (Customers, ["customer", "client"]);
    assert r2[0] == (Products, ["product", "subscription"]);
    assert r2[1..] == [];
    MentionsAnyOf3(q, "sales", "revenue", "profit");
    MentionsAnyOf2(q, "customer", "client");
    MentionsAnyOf2(q, "product", "subscription");
    assert FirstMatch(q, r0) == if MentionsAny(q, r0[0].1) then Some(Sales) else FirstMatch(q, r1);
    assert FirstMatch(q, r1) == if MentionsAny(q, r1[0].1) then Some(Customers) else FirstMatch(q, r2);
    assert FirstMatch(q, r2) == if MentionsAny(q, r2[0].1) then Some(Products) else FirstMatch(q, r2[1..]);
  }

  /** The query text follows the keyword families, whatever the draw: a
      sales word gives the sales query, else a customer word the customers
      query, else a product word the products query; only a question with
      none of them gets the query of the drawn table. */
  lemma KeywordsPickQuery(question: string, pick: TableIndex)
    ensures var q := ToLower(question);
      var sales := Contains(q, "sales") || Contains(q, "revenue") || Contains(q, "profit");
      var customers := Contains(q, "customer") || Contains(q, "client");
      var products := Contains(q, "product") || Contains(q, "subscription");
      && (sales ==> GenerateMockSql(question, pick) == SalesSql)
      && (!sales && customers ==> GenerateMockSql(question, pick) == CustomersSql)
      && (!sales && !customers && products ==> GenerateMockSql(question, pick) == ProductsSql)
      && (!sales && !customers && !products ==> GenerateMockSql(question, pick) == SqlFor(TableTypes[pick]))
  {
    SelectTablePriority(question, pick);
  }

  /** Matching ignores case: questions equal up to ASCII case pick the same table. */
  lemma SelectTableIgnoresCase(a: string, b: string, pick: TableIndex)
    requires ToLower(a) == ToLower(b)
    ensures SelectTable(a, pick) == SelectTable(b, pick)
    ensures SelectTable(ToLower(a), pick) == SelectTable(a, pick)
  {
    ToLowerIdempotent(a);
  }

  /** Each table has its own query text, so the text tells which table the
      keyword rules selected. */
  lemma SqlForInjective(t1: Table, t2: Table)
    ensures SqlFor(t1) == SqlFor(t2) <==> t1 == t2
  {
    SqlLengths();
  }

  lemma SqlLengths()
    ensures |SalesSql| == 112 && |CustomersSql| == 88 && |ProductsSql| == 73
  {
  }

  // ---------------------------------------------------------------------------
  // determineChartType

  const Purple := "#8884d8"
  const Green := "#82ca9d"
  const Yellow := "#ffc658"

  /** `first` is the first `Math.random() > 0.5` coin; `second` is the extra
      coin the products table flips when the first one chose a line chart. */
  function DetermineChartType(t: Table, first: bool, second: bool): ChartInfo
  {
    match t
    case Sales =>
      ChartInfo(if first then MultiLine else MultiBar,
                ChartConfig(Axis("month", "Month"),
                            [YAxis("revenue", "Revenue ($)", Purple),
                             YAxis("expenses", "Expenses ($)", Green),
                             YAxis("profit", "Profit ($)", Yellow)]))
    case Customers =>
      ChartInfo(if first then Bar else Pie,
                ChartConfig(Axis("name", "Customer"), [YAxis("annualSpend", "Annual Spend ($)", Purple)]))
    case Products =>
      if !first && second then
        ChartInfo(MultiLine, ChartConfig(Axis("month", "Month"), [YAxis("sales", "Monthly Sales", Purple)]))
      else
        ChartInfo(if first then Bar else Line,
                  ChartConfig(Axis("name", "Product"), [YAxis("unitPrice", "Unit Price ($)", Purple)]))
  }

  /** What each table's chart can be. */
  lemma ChartChoices(t: Table, first: bool, second: bool)
    ensures var info := DetermineChartType(t, first, second);
      && |info.config.yAxes| > 0
      && (t == Sales ==>
            && info.chartType in {MultiLine, MultiBar}
            && info.config.xAxis.key == "month"
            && |info.config.yAxes| == 3)
      && (t == Customers ==>
            && info.chartType in {Bar, Pie}
            && info.config.xAxis.key == "name"
            && |info.config.yAxes| == 1 && info.config.yAxes[0].key == "annualSpend")
      && (t == Products ==>
            && info.chartType in {Bar, Line, MultiLine}
            && (info.config.xAxis.key == "month" <==> info.chartType == MultiLine))
  {
  }

  // ---------------------------------------------------------------------------
  // generateTextualAnswer

  /** The fixed narratives. */
  const SalesNarrative: string := "Based on our analysis, sales revenue has shown a consistent growth trend over the first half of the year, with the North region outperforming the South. The profit margins appear to be improving month-over-month, with June showing the highest profitability. This suggests that our cost management strategies are working effectively alongside revenue growth."
  const CustomersNarrative: string := "The customer data reveals that Enterprise segment clients generate the highest annual spend, with Global Industries being our top customer. However, we should note that SMB clients are growing in number and represent a significant opportunity for expansion. Customer loyalty appears to correlate positively with annual spend, suggesting we should focus on retention strategies for high-value accounts."
  const ProductsNarrative: string := "Our product analysis indicates that subscription-based offerings generate the most consistent revenue stream. The Basic Plan has the highest volume of sales, while the Enterprise Solution, despite lower volume, contributes significantly to revenue due to its higher price point. Monthly sales trends show growth across all product categories, with Premium Plan showing the most promising growth trajectory."

  /** The fixed narrative of each table; the question text plays no part. */
  function GenerateTextualAnswer(question: string, t: Table): string
  {
    match t
    case Sales => SalesNarrative
    case Customers => CustomersNarrative
    case Products => ProductsNarrative
  }

  lemma NarrativeLengths()
    ensures |SalesNarrative| == 357 && |CustomersNarrative| == 401 && |ProductsNarrative| == 406
  {
  }

  /** The narrative depends on the drawn table alone: any two questions get
      the same text for the same table, and different tables get different
      texts. */
  lemma NarrativePerTable(q1: string, q2: string, t1: Table, t2: Table)
    ensures GenerateTextualAnswer(q1, t1) == GenerateTextualAnswer(q2, t2) <==> t1 == t2
  {
    NarrativeLengths();
  }
}

=== FILE: chart_view.dfy ===
/** The chart panel's dispatch from the chart-type string to a chart
    component. The lookup goes through a plain object literal, so names the
    literal inherits are found as well; `RenderAsWritten` keeps that
    behaviour and `Render` is the dispatch the table of components means. */
module ChartView {
  import opened Values
  import opened Analytics

  datatype Component = BarChart | LineChart | PieChart

  /** What the panel shows: nothing, one of the chart components, or (as
      written) whatever inherited member the lookup found under `name`. */
  datatype Rendered = Nothing | Chart(component: Component) | Inherited(name: string)

  /** The own properties of the `chartComponents` literal. */
  function OwnComponent(name: string): Option<Component>
  {
    if name == "bar" || name == "multiBar" then Some(BarChart)
    else if name == "line" || name == "multiLine" then Some(LineChart)
    else if name == "pie" then Some(PieChart)
    else None
  }

  /** The members every plain object inherits from `Object.prototype`; each
      is a function or an object, so each is truthy. */
  const InheritedNames: set<string> := {
    "constructor", "hasOwnProperty", "isPrototypeOf", "propertyIsEnumerable",
    "toLocaleString", "toString", "valueOf", "__proto__",
    "__defineGetter__", "__defineSetter__", "__lookupGetter__", "__lookupSetter__"
  }

  /** The guard on the props: data, a non-empty chart type and a config must
      all be present; an empty data array still passes. */
  predicate PropsPresent(tableData: Option<seq<Row>>, chartType: Option<string>, config: Option<ChartConfig>)
  {
    tableData.Some? && chartType.Some? && chartType.value != "" && config.Some?
  }

  /** The dispatch as the component performs it: an own property gives its
      component, an inherited member is found too, anything else is nothing. */
  function RenderAsWritten(tableData: Option<seq<Row>>, chartType: Option<string>, config: Option<ChartConfig>): (r: Rendered)
    ensures !PropsPresent(tableData, chartType, config) ==> r == Nothing
    ensures r.Chart? ==> exists t: ChartType :: t.Name() == chartType.value
    ensures r.Inherited? ==> r.name == chartType.value && r.name in InheritedNames
  {
    if !PropsPresent(tableData, chartType, config) then Nothing
    else match OwnComponent(chartType.value)
      case Some(c) =>
        if chartType.value == "bar" then assert Bar.Name() == chartType.value; Chart(c)
        else if chartType.value == "multiBar" then assert MultiBar.Name() == chartType.value; Chart(c)
        else if chartType.value == "line" then assert Line.Name() == chartType.value; Chart(c)
        else if chartType.value == "multiLine" then assert MultiLine.Name() == chartType.value; Chart(c)
        else assert Pie.Name() == chartType.value; Chart(c)
      case None => if chartType.value in InheritedNames then Inherited(chartType.value) else Nothing
  }

  /** The dispatch the component table describes: only the five listed chart
      types render, and every other string renders nothing. */
  function Render(tableData: Option<seq<Row>>, chartType: Option<string>, config: Option<ChartConfig>): (r: Rendered)
    ensures !r.Inherited?
    ensures !PropsPresent(tableData, chartType, config) ==> r == Nothing
    ensures r.Chart? ==> exists t: ChartType :: t.Name() == chartType.value
  {
    if !PropsPresent(tableData, chartType, config) then Nothing
    else match OwnComponent(chartType.value)
      case Some(c) =>
        assert chartType.value in {"bar", "multiBar", "line", "multiLine", "pie"};
        if chartType.value == "bar" then assert Bar.Name() == chartType.value; Chart(c)
        else if chartType.value == "multiBar" then assert MultiBar.Name() == chartType.value; Chart(c)
        else if chartType.value == "line" then assert Line.Name() == chartType.value; Chart(c)
        else if chartType.value == "multiLine" then assert MultiLine.Name() == chartType.value; Chart(c)
        else assert Pie.Name() == chartType.value; Chart(c)
      case None => Nothing
  }

  /** The component each server chart type is drawn with. */
  function ComponentFor(t: ChartType): Component
  {
    match t
    case Bar | MultiBar => BarChart
    case Line | MultiLine => LineChart
    case Pie => PieChart
  }

  /** Every chart type the server can assign, the fallback `bar` included,
      is drawn, with the bar component for both bar types, the line component
      for both line types and the pie component for `pie`. */
  lemma ServerTypesRender(t: ChartType, data: seq<Row>, config: ChartConfig)
    ensures Render(Some(data), Some(t.Name()), Some(config)) == Chart(ComponentFor(t))
  {
  }

  /** A string that names none of the server's chart types renders nothing. */
  lemma OtherNamesRenderNothing(data: seq<Row>, name: string, config: ChartConfig)
    requires forall t: ChartType :: t.Name() != name
    ensures Render(Some(data), Some(name), Some(config)) == Nothing
  {
    assert Bar.Name() == "bar" && MultiBar.Name() == "multiBar" && Line.Name() == "line";
    assert MultiLine.Name() == "multiLine" && Pie.Name() == "pie";
  }

  /** The two dispatches differ exactly on the inherited names. */
  lemma AsWrittenDiffersOnlyOnInherited(tableData: Option<seq<Row>>, chartType: Option<string>, config: Option<ChartConfig>)
    ensures RenderAsWritten(tableData, chartType, config) != Render(tableData, chartType, config)
      <==> PropsPresent(tableData, chartType, config) && chartType.value in InheritedNames
  {
  }

  /** As written, the chart type "toString" renders the inherited method
      instead of nothing. */
  lemma InheritedNameRenders(data: seq<Row>, config: ChartConfig)
    ensures RenderAsWritten(Some(data), Some("toString"), Some(config)) == Inherited("toString")
    ensures Render(Some(data), Some("toString"), Some(config)) == Nothing
  {
  }
}

=== FILE: client.dfy ===
/** The browser application's state logic: the `inquiry_updated` reducer and
    its stream trigger, accumulation of streamed text, the session start-up
    with bounded retries, the submission guard and clearing the results.
    Network calls are replaced by their outcomes, passed in as arguments. */
module Client {
  import opened Values
  import opened Text
  import opened Lifecycle
  import opened Server

  /** The application's state: the session, the list of inquiries shown, the
      question box, the event log messages, the streamed text per inquiry,
      the latest submitted inquiry and the session error banner. */
  datatype ClientState = ClientState(
    sessionId: Option<string>,
    inquiries: seq<Inquiry>,
    question: string,
    loading: bool,
    eventLogs: seq<string>,
    streamedText: map<string, string>,
    latestInquiryId: Option<string>,
    sessionError: Option<string>,
    sessionLoading: bool)

  /** The state on first render. */
  const Initial := ClientState(None, [], "", false, [], map[], None, None, true)

  // ---------------------------------------------------------------------------
  // The inquiry list

  function Ids(xs: seq<Inquiry>): seq<string>
  {
    seq(|xs|, i requires 0 <= i < |xs| => xs[i].id)
  }

  ghost predicate UniqueIds(xs: seq<Inquiry>)
  {
    forall i, j :: 0 <= i < j < |xs| ==> xs[i].id != xs[j].id
  }

  /** The first entry with identifier `id`. */
  function Lookup(xs: seq<Inquiry>, id: string): Option<Inquiry>
  {
    if |xs| == 0 then None
    else if xs[0].id == id then Some(xs[0])
    else Lookup(xs[1..], id)
  }

  /** The reducer: every entry with the incoming identifier is replaced where
      it stands; an unseen identifier is appended. */
  function Upsert(xs: seq<Inquiry>, inq: Inquiry): seq<Inquiry>
  {
    if inq.id in Ids(xs) then
      seq(|xs|, i requires 0 <= i < |xs| => if xs[i].id == inq.id then inq else xs[i])
    else xs + [inq]
  }

  /** A known identifier: the list keeps its length and identifier order, the
      entry is replaced in place and every other entry stays put. */
  lemma UpsertExisting(xs: seq<Inquiry>, inq: Inquiry)
    requires inq.id in Ids(xs)
    ensures var r := Upsert(xs, inq);
      && |r| == |xs| && Ids(r) == Ids(xs)
      && (forall i :: 0 <= i < |xs| && xs[i].id == inq.id ==> r[i] == inq)
      && (forall i :: 0 <= i < |xs| && xs[i].id != inq.id ==> r[i] == xs[i])
  {
  }

  /** An unseen identifier: the entry goes last and the list grows by one. */
  lemma UpsertNew(xs: seq<Inquiry>, inq: Inquiry)
    requires inq.id !in Ids(xs)
    ensures var r := Upsert(xs, inq);
      && |r| == |xs| + 1 && r[..|xs|] == xs && r[|xs|] == inq
  {
  }

  /** Seen through lookups by identifier, the reducer is a map update: the
      incoming record is found under its identifier and every other lookup
      is unchanged. */
  lemma {:induction false} UpsertLookup(xs: seq<Inquiry>, inq: Inquiry, k: string)
    ensures Lookup(Upsert(xs, inq), inq.id) == Some(inq)
    ensures k != inq.id ==> Lookup(Upsert(xs, inq), k) == Lookup(xs, k)
  {
    LookupReplaced(xs, inq, k);
    LookupAppended(xs, inq, k);
  }

  lemma {:induction false} LookupReplaced(xs: seq<Inquiry>, inq: Inquiry, k: string)
    ensures var r := seq(|xs|, i requires 0 <= i < |xs| => if xs[i].id == inq.id then inq else xs[i]);
      && (inq.id in Ids(xs) ==> Lookup(r, inq.id) == Some(inq))
      && (k != inq.id ==> Lookup(r, k) == Lookup(xs, k))
  {
    var r := seq(|xs|, i requires 0 <= i < |xs| => if xs[i].id == inq.id then inq else xs[i]);
    if |xs| > 0 {
      var rest := seq(|xs| - 1, i requires 0 <= i < |xs| - 1 => if xs[1..][i].id == inq.id then inq else xs[1..][i]);
      assert r[1..] == rest;
      assert Ids(xs) == [xs[0].id] + Ids(xs[1..]);
      LookupReplaced(xs[1..], inq, k);
    }
  }

  lemma {:induction false} LookupAppended(xs: seq<Inquiry>, inq: Inquiry, k: string)
    ensures inq.id !in Ids(xs) ==> Lookup(xs + [inq], inq.id) == Some(inq)
    ensures k != inq.id ==> Lookup(xs + [inq], k) == Lookup(xs, k)
  {
    if |xs| > 0 {
      assert (xs + [inq])[1..] == xs[1..] + [inq];
      assert Ids(xs) == [xs[0].id] + Ids(xs[1..]);
      LookupAppended(xs[1..], inq, k);
    }
  }

  /** The reducer keeps identifiers unique, and the identifiers present are
      the old ones plus the incoming one. */
  lemma UpsertUnique(xs: seq<Inquiry>, inq: Inquiry)
    requires UniqueIds(xs)
    ensures UniqueIds(Upsert(xs, inq))
    ensures multiset(Ids(Upsert(xs, inq))) == (if inq.id in Ids(xs) then multiset(Ids(xs)) else multiset(Ids(xs)) + multiset{inq.id})
  {
    var r := Upsert(xs, inq);
    if inq.id in Ids(xs) {
      assert Ids(r) == Ids(xs);
    } else {
      assert Ids(r) == Ids(xs) + [inq.id];
      forall i | 0 <= i < |xs| ensures xs[i].id != inq.id {
        assert Ids(xs)[i] == xs[i].id;
      }
    }
  }

  // ---------------------------------------------------------------------------
  // The `inquiry_updated` handler

  /** Streaming starts for a done record whose streamed text is absent or
      empty. */
  predicate ShouldStream(streamed: map<string, string>, inq: Inquiry)
  {
    inq.status == Done && (inq.id !in streamed || streamed[inq.id] == "")
  }

  function UpdateMessage(inq: Inquiry): string
  {
    "Inquiry updated: " + inq.id + " - " + inq.status.Name()
  }

  /** The handler's effect: the new state and whether it starts streaming. */
  datatype Reaction = Reaction(state: ClientState, startStream: bool)

  function OnInquiryUpdated(st: ClientState, inq: Inquiry): (r: Reaction)
    ensures r.state.eventLogs == st.eventLogs + [UpdateMessage(inq)]
    ensures r.state.streamedText == st.streamedText
    ensures Lookup(r.state.inquiries, inq.id) == Some(inq)
    ensures forall k :: k != inq.id ==> Lookup(r.state.inquiries, k) == Lookup(st.inquiries, k)
    ensures r.state.(inquiries := st.inquiries, eventLogs := st.eventLogs) == st
    ensures r.startStream <==> inq.status == Done && (inq.id !in st.streamedText || st.streamedText[inq.id] == "")
  {
    forall k ensures k != inq.id ==> Lookup(Upsert(st.inquiries, inq), k) == Lookup(st.inquiries, k) {
      UpsertLookup(st.inquiries, inq, k);
    }
    UpsertLookup(st.inquiries, inq, inq.id);
    Reaction(st.(inquiries := Upsert(st.inquiries, inq), eventLogs := st.eventLogs + [UpdateMessage(inq)]),
             ShouldStream(st.streamedText, inq))
  }

  // ---------------------------------------------------------------------------
  // Streaming

  /** The map after the pieces `chunks` arrive for `id`, each arrival storing
      the text accumulated so far, starting from `acc`. */
  function ApplyChunks(streamed: map<string, string>, id: string, acc: string, chunks: seq<string>): map<string, string>
    decreases |chunks|
  {
    if |chunks| == 0 then streamed
    else ApplyChunks(streamed[id := acc + chunks[0]], id, acc + chunks[0], chunks[1..])
  }

  /** After at least one piece the stored text is everything received, in
      order; other inquiries' text is untouched. */
  lemma {:induction false} ApplyChunksConcat(streamed: map<string, string>, id: string, acc: string, chunks: seq<string>)
    ensures |chunks| > 0 ==> ApplyChunks(streamed, id, acc, chunks) == streamed[id := acc + Concat(chunks)]
    ensures |chunks| == 0 ==> ApplyChunks(streamed, id, acc, chunks) == streamed
    decreases |chunks|
  {
    if |chunks| > 0 {
      var m := streamed[id := acc + chunks[0]];
      ApplyChunksConcat(m, id, acc + chunks[0], chunks[1..]);
      var x := acc + Concat(chunks);
      assert Concat(chunks) == chunks[0] + Concat(chunks[1..]);
      assert (acc + chunks[0]) + Concat(chunks[1..]) == x;
      assert ApplyChunks(streamed, id, acc, chunks) == ApplyChunks(m, id, acc + chunks[0], chunks[1..]);
      if |chunks| == 1 {
        assert Concat(chunks[1..]) == "";
        assert acc + chunks[0] == x;
      } else {
        assert m[id := x] == streamed[id := x];
      }
    }
  }

  function CompletedMessage(id: string): string
  {
    "Streaming completed for inquiry: " + id
  }

  function StreamErrorMessage(id: string, error: string): string
  {
    "Streaming error for inquiry " + id + ": " + error
  }

  /** `startStreaming(id)`: the pieces the reader delivered, then either the
      completion message or, when `failure` holds the error's text, the error
      message. Nothing else in the state changes. */
  function StartStreaming(st: ClientState, id: string, chunks: seq<string>, failure: Option<string>): (st': ClientState)
    ensures |chunks| > 0 ==> st'.streamedText == st.streamedText[id := Concat(chunks)]
    ensures |chunks| == 0 ==> st'.streamedText == st.streamedText
    ensures |st'.eventLogs| == |st.eventLogs| + 1 && st'.eventLogs[..|st.eventLogs|] == st.eventLogs
    ensures failure.None? ==> st'.eventLogs[|st.eventLogs|] == CompletedMessage(id)
    ensures failure.Some? ==> st'.eventLogs[|st.eventLogs|] == StreamErrorMessage(id, failure.value)
    ensures st'.(streamedText := st.streamedText, eventLogs := st.eventLogs) == st
  {
    ApplyChunksConcat(st.streamedText, id, "", chunks);
    assert "" + Concat(chunks) == Concat(chunks);
    var message := match failure
      case None => CompletedMessage(id)
      case Some(e) => StreamErrorMessage(id, e);
    st.(streamedText := ApplyChunks(st.streamedText, id, "", chunks), eventLogs := st.eventLogs + [message])
  }

  /** End to end: when the record is done on the server and the reader
      delivers the stream handler's writes (regrouped in any way), the text
      stored for the inquiry is its narrative. */
  lemma StreamedTextIsAnswer(b: Backend, id: string, st: ClientState, chunks: seq<string>)
    requires id in b.inquiries && b.inquiries[id].status == Done && b.inquiries[id].textualAnswer.Some?
    requires Concat(chunks) == Concat(StreamWrites(b.inquiries[id].textualAnswer.value)) && |chunks| > 0
    ensures StartStreaming(st, id, chunks, None).streamedText[id] == b.inquiries[id].textualAnswer.value
  {
    StreamWritesConcat(b.inquiries[id].textualAnswer.value);
  }

  /** Once an inquiry's streamed text is non-empty, a later broadcast of the
      done record does not start a second stream. */
  lemma NoSecondStream(st: ClientState, id: string, chunks: seq<string>, failure: Option<string>, inq: Inquiry)
    requires inq.id == id && |chunks| > 0 && Concat(chunks) != ""
    ensures !ShouldStream(StartStreaming(st, id, chunks, failure).streamedText, inq)
  {
  }

  // ---------------------------------------------------------------------------
  // Session start-up

  const MaxAttempts := 3
  const GaveUpBanner := "Max retry attempts reached. Please refresh."

  function Pow2(k: nat): nat
  {
    if k == 0 then 1 else 2 * Pow2(k - 1)
  }

  /** What start-up does, in order: a `createSession` call, a wait after a
      failed call, the session being established, or giving up. */
  datatype InitEvent = Attempt(n: nat) | Wait(ms: nat) | Established(id: string) | GaveUp

  datatype Init = Init(events: seq<InitEvent>, state: ClientState)

  /** `initializeSession(attempt)`; `create(k)` is the outcome of the k-th
      `createSession` call, None when it fails. */
  function InitializeSession(st: ClientState, attempt: nat, create: nat -> Option<string>): Init
    requires attempt >= 1
    decreases MaxAttempts + 1 - attempt
  {
    if attempt > MaxAttempts then
      Init([GaveUp], st.(sessionError := Some(GaveUpBanner), sessionLoading := false,
                         eventLogs := st.eventLogs + ["Max retry attempts reached for session creation"]))
    else
      match create(attempt)
      case Some(id) =>
        Init([Attempt(attempt), Established(id)],
             st.(sessionId := Some(id), sessionError := None, sessionLoading := false,
                 eventLogs := st.eventLogs + ["Session created: " + id]))
      case None =>
        var rest := InitializeSession(st.(sessionLoading := false), attempt + 1, create);
        Init([Attempt(attempt), Wait(1000 * Pow2(attempt))] + rest.events, rest.state)
  }

  function Attempts(events: seq<InitEvent>): nat
  {
    if |events| == 0 then 0 else (if events[0].Attempt? then 1 else 0) + Attempts(events[1..])
  }

  lemma {:induction false} AttemptsAppend(a: seq<InitEvent>, b: seq<InitEvent>)
    ensures Attempts(a + b) == Attempts(a) + Attempts(b)
  {
    if |a| > 0 {
      assert (a + b)[1..] == a[1..] + b;
      AttemptsAppend(a[1..], b);
    } else {
      assert a + b == b;
    }
  }

  /** From attempt `n` on, at most `MaxAttempts - n + 1` calls are made. */
  lemma {:induction false} InitializeSessionBounded(st: ClientState, attempt: nat, create: nat -> Option<string>)
    requires attempt >= 1
    ensures Attempts(InitializeSession(st, attempt, create).events)
              <= (if attempt > MaxAttempts then 0 else MaxAttempts + 1 - attempt)
    decreases MaxAttempts + 1 - attempt
  {
    var events := InitializeSession(st, attempt, create).events;
    if attempt > MaxAttempts {
      assert events == [GaveUp];
      assert Attempts([GaveUp]) == 0 by { assert [GaveUp][1..] == []; }
    } else if create(attempt).Some? {
      var tail := [Established(create(attempt).value)];
      assert events == [Attempt(attempt)] + tail;
      assert Attempts(tail) == 0 by { assert tail[1..] == []; }
      assert Attempts(events) == 1 by { assert events[1..] == tail; }
    } else {
      var rest := InitializeSession(st.(sessionLoading := false), attempt + 1, create);
      InitializeSessionBounded(st.(sessionLoading := false), attempt + 1, create);
      var head := [Attempt(attempt), Wait(1000 * Pow2(attempt))];
      assert events == head + rest.events;
      assert Attempts(head) == 1 by {
        var w := [Wait(1000 * Pow2(attempt))];
        assert head[1..] == w;
        assert Attempts(w) == 0 by { assert w[1..] == []; }
      }
      AttemptsAppend(head, rest.events);
    }
  }

  /** Every run ends in exactly one of an established session or giving up,
      with the loading flag off. */
  lemma {:induction false} InitializeSessionEnds(st: ClientState, attempt: nat, create: nat -> Option<string>)
    requires attempt >= 1
    ensures var r := InitializeSession(st, attempt, create);
      && |r.events| > 0
      && (r.events[|r.events| - 1].Established? || r.events[|r.events| - 1] == GaveUp)
      && !r.state.sessionLoading
    decreases MaxAttempts + 1 - attempt
  {
    if attempt <= MaxAttempts && create(attempt).None? {
      InitializeSessionEnds(st.(sessionLoading := false), attempt + 1, create);
    }
  }

  /** The whole schedule from the first attempt: the first successful call
      establishes the session; after failed call k the wait is 1000 * 2^k ms;
      three failures end with the banner. */
  lemma InitializeSessionSchedule(st: ClientState, create: nat -> Option<string>)
    ensures var r := InitializeSession(st, 1, create);
      && (create(1).Some? ==> r.events == [Attempt(1), Established(create(1).value)])
      && (create(1).None? && create(2).Some? ==>
            r.events == [Attempt(1), Wait(2000), Attempt(2), Established(create(2).value)])
      && (create(1).None? && create(2).None? && create(3).Some? ==>
            r.events == [Attempt(1), Wait(2000), Attempt(2), Wait(4000), Attempt(3), Established(create(3).value)])
      && (create(1).None? && create(2).None? && create(3).None? ==>
            && r.events == [Attempt(1), Wait(2000), Attempt(2), Wait(4000), Attempt(3), Wait(8000), GaveUp]
            && r.state.sessionError == Some(GaveUpBanner)
            && r.state.sessionId == st.sessionId)
      && (r.state.sessionError == Some(GaveUpBanner) <==>
            create(1).None? && create(2).None? && create(3).None?)
  {
    assert Pow2(1) == 2 && Pow2(2) == 4 && Pow2(3) == 8;
  }

  /** Mount: a stored identifier that is a non-empty string is reused and no
      session is created; otherwise start-up runs. */
  function Startup(stored: Option<string>, create: nat -> Option<string>): (r: Init)
    ensures stored.Some? && stored.value != "" ==> r.events == [] && r.state.sessionId == stored
    ensures !(stored.Some? && stored.value != "") ==> r.events != [] && r.events[0] == Attempt(1)
  {
    if stored.Some? && stored.value != "" then
      Init([], Initial.(sessionId := stored, sessionLoading := false, sessionError := None))
    else
      InitializeSession(Initial, 1, create)
  }

  // ---------------------------------------------------------------------------
  // Submitting

  /** The handler's effect, and the request it sent if any (session and
      question). */
  datatype Submission = Submission(state: ClientState, request: Option<(string, string)>)

  const RefusedMessage := "Cannot submit inquiry: No session or empty question"

  const SubmitErrorMessage := "Error submitting inquiry"

  function SubmittedMessage(id: string): string
  {
    "Inquiry submitted: " + id
  }

  /** `submitInquiry(q)`; `outcome` is what the API call returns, None when
      it fails. A refusal only logs; an accepted request ends with loading
      off, and on success also empties the question box and records the new
      inquiry as the latest. Nothing else changes. */
  function SubmitQuestion(st: ClientState, q: string, outcome: Option<string>): (r: Submission)
    ensures r.request.None? <==> st.sessionId.None? || st.sessionId.value == "" || Trim(q) == ""
    ensures r.request.None? ==> r.state == st.(eventLogs := st.eventLogs + [RefusedMessage])
    ensures r.request.Some? ==> r.request.value == (st.sessionId.value, q) && !r.state.loading
    ensures r.request.Some? && outcome.Some? ==>
      r.state == st.(question := "", latestInquiryId := outcome, loading := false,
                     eventLogs := st.eventLogs + [SubmittedMessage(outcome.value)])
    ensures r.request.Some? && outcome.None? ==>
      r.state == st.(loading := false, eventLogs := st.eventLogs + [SubmitErrorMessage])
  {
    if st.sessionId.None? || st.sessionId.value == "" || Trim(q) == "" then
      Submission(st.(eventLogs := st.eventLogs + [RefusedMessage]), None)
    else
      var request := Some((st.sessionId.value, q));
      match outcome
      case Some(id) =>
        Submission(st.(question := "", latestInquiryId := Some(id), loading := false,
                       eventLogs := st.eventLogs + [SubmittedMessage(id)]), request)
      case None =>
        Submission(st.(loading := false, eventLogs := st.eventLogs + [SubmitErrorMessage]), request)
  }

  /** The browser's guard is stricter than the server's: a question it sends
      is never refused as missing, even though it sends it untrimmed. */
  lemma SubmittedQuestionAccepted(st: ClientState, q: string, outcome: Option<string>,
                                  b: Backend, inquiryId: string, now: seq<Time>)
    requires |now| == 3
    requires SubmitQuestion(st, q, outcome).request.Some?
    ensures var req := SubmitQuestion(st, q, outcome).request.value;
      SubmitInquiry(b, req.0, Some(req.1), inquiryId, now).response != Err(QuestionRequired)
  {
    assert Trim("") == "";
  }

  /** `clearResults`: the list, the streamed text, the latest inquiry and
      the log are emptied; the session and the question box are kept. */
  function ClearResults(st: ClientState): (st': ClientState)
    ensures st'.inquiries == [] && st'.streamedText == map[] && st'.latestInquiryId.None? && st'.eventLogs == []
    ensures st'.sessionId == st.sessionId && st'.question == st.question && st'.sessionError == st.sessionError
    ensures st'.(inquiries := st.inquiries, streamedText := st.streamedText,
                 latestInquiryId := st.latestInquiryId, eventLogs := st.eventLogs) == st
  {
    st.(inquiries := [], streamedText := map[], latestInquiryId := None, eventLogs := [])
  }

  /** After clearing, a done broadcast starts its stream again, and the
      record comes back as the only entry. */
  lemma ClearThenDoneRestreams(st: ClientState, inq: Inquiry)
    requires inq.status == Done
    ensures var r := OnInquiryUpdated(ClearResults(st), inq);
      r.startStream && r.state.inquiries == [inq]
  {
  }
}

=== FILE: lifecycle.dfy ===
/** One inquiry's background pipeline (`processInquiry`): a fixed sequence of
    mutations of the inquiry record, each followed by a broadcast of the whole
    record. Delays are left out; clock readings and random draws are inputs. */
module Lifecycle {
  import opened Values
  import opened Text
  import opened MockData
  import opened Analytics

  /** A `new Date()` reading, in milliseconds. */
  type Time = int

  /** The externally visible stage of an inquiry. */
  datatype Status = Created | Processing | Done
  {
    function Name(): string
    {
      match this
      case Created => "created"
      case Processing => "processing"
      case Done => "done"
    }
  }

  /** The inquiry record; the optional fields are filled in by the pipeline. */
  datatype Inquiry = Inquiry(
    id: string,
    sessionId: string,
    question: string,
    status: Status,
    created: Time,
    updated: Time,
    timeFrame: Option<string>,
    sql: Option<string>,
    tableData: Option<seq<Row>>,
    chartType: Option<ChartType>,
    chartConfig: Option<ChartConfig>,
    textualAnswer: Option<string>)

  /** The random draws of one pipeline run: the table index drawn beside the
      SQL step, `generateMockSQL`'s own index, the chart coins, and whether the
      chart/transform step throws into its fallback. */
  datatype Draws = Draws(
    table: TableIndex,
    sqlPick: TableIndex,
    chartCoin: bool,
    monthlyCoin: bool,
    transformThrows: bool)

  /** The values phases 3 to 5 store. They depend only on the question, which
      never changes, and on the draws, so they can be worked out in one place. */
  datatype Analysis = Analysis(
    sql: string,
    tableData: seq<Row>,
    chartType: ChartType,
    chartConfig: ChartConfig,
    textualAnswer: string)

  /** The pipeline's result: the record it leaves behind and the snapshots it
      broadcast, in order. */
  datatype Run = Run(final: Inquiry, trace: seq<Inquiry>)

  const TimeFrameLabel := "Last 6 months"
  const PhaseCount := 5

  /** A record as submission creates it: no phase result yet. */
  predicate Blank(inq: Inquiry)
  {
    && inq.timeFrame.None? && inq.sql.None? && inq.tableData.None?
    && inq.chartType.None? && inq.chartConfig.None? && inq.textualAnswer.None?
  }

  /** The catch-branch chart axes: the first two keys of the first raw row. */
  function FallbackConfig(raw: seq<Row>): ChartConfig
    requires |raw| > 0 && |raw[0]| >= 2
  {
    var keys := Keys(raw[0]);
    ChartConfig(Axis(keys[0], keys[0]), [YAxis(keys[1], keys[1], Purple)])
  }

  /** The rows and chart the visualisation step settles on. */
  datatype Chart = Chart(rows: seq<Row>, chartType: ChartType, config: ChartConfig)

  /** The chart step for the raw rows of `table`: the chosen chart over the
      transformed rows, or, when the chart or transform step throws, the raw
      rows with a bar chart over their first two keys. */
  function ChartStep(raw: seq<Row>, table: Table, d: Draws): Chart
    requires |raw| > 0 && |raw[0]| >= 2
  {
    if !d.transformThrows then
      var info := DetermineChartType(table, d.chartCoin, d.monthlyCoin);
      Chart(TransformProductData(raw, Some(info.config)), info.chartType, info.config)
    else
      Chart(raw, Bar, FallbackConfig(raw))
  }

  /** What the pipeline computes for a question under the given draws: the
      query text from the keyword rules with their own draw; the chart step
      and the narrative from the table drawn at `d.table`. */
  function Analyze(question: string, d: Draws, db: Dataset): Analysis
    requires Usable(db)
  {
    var table := TableTypes[d.table];
    var chart := ChartStep(db.RowsOf(table), table, d);
    Analysis(GenerateMockSql(question, d.sqlPick), chart.rows, chart.chartType, chart.config,
             GenerateTextualAnswer(question, table))
  }

  /** Phase 1: the record enters processing. */
  function StartProcessing(inq: Inquiry, now: Time): Inquiry
  {
    inq.(status := Processing, updated := now)
  }

  /** Phase 2: the fixed analysis window. */
  function SetTimeFrame(inq: Inquiry, now: Time): Inquiry
  {
    inq.(timeFrame := Some(TimeFrameLabel), updated := now)
  }

  /** Phase 3: the query text. */
  function SetSql(inq: Inquiry, a: Analysis, now: Time): Inquiry
  {
    inq.(sql := Some(a.sql), updated := now)
  }

  /** Phase 4: the rows and the chart. */
  function SetData(inq: Inquiry, a: Analysis, now: Time): Inquiry
  {
    inq.(tableData := Some(a.tableData), chartType := Some(a.chartType), chartConfig := Some(a.chartConfig), updated := now)
  }

  /** Phase 5: the narrative, and the record is done. */
  function SetAnswer(inq: Inquiry, a: Analysis, now: Time): Inquiry
  {
    inq.(textualAnswer := Some(a.textualAnswer), status := Done, updated := now)
  }

  /** Phases 2 to 5, which run after the submitting request has been answered;
      `clock` holds their four `new Date()` readings. */
  function ContinueProcessing(inq: Inquiry, a: Analysis, clock: seq<Time>): Run
    requires |clock| == 4
  {
    var s1 := SetTimeFrame(inq, clock[0]);
    var s2 := SetSql(s1, a, clock[1]);
    var s3 := SetData(s2, a, clock[2]);
    var s4 := SetAnswer(s3, a, clock[3]);
    Run(s4, [s1, s2, s3, s4])
  }

  /** The whole of `processInquiry` for an analysis outcome; `clock` holds its
      five readings. */
  function ProcessInquiry(inq: Inquiry, a: Analysis, clock: seq<Time>): Run
    requires |clock| == PhaseCount
  {
    var s0 := StartProcessing(inq, clock[0]);
    var rest := ContinueProcessing(s0, a, clock[1..]);
    Run(rest.final, [s0] + rest.trace)
  }

  ghost predicate NonDecreasing(ts: seq<Time>)
  {
    forall i, j :: 0 <= i <= j < |ts| ==> ts[i] <= ts[j]
  }

  /** `b` keeps every phase result `a` has: the pipeline never clears or
      rewrites a field once set. */
  ghost predicate Keeps(a: Inquiry, b: Inquiry)
  {
    && a.id == b.id && a.sessionId == b.sessionId && a.question == b.question && a.created == b.created
    && (a.timeFrame.Some? ==> b.timeFrame == a.timeFrame)
    && (a.sql.Some? ==> b.sql == a.sql)
    && (a.tableData.Some? ==> b.tableData == a.tableData)
    && (a.chartType.Some? ==> b.chartType == a.chartType)
    && (a.chartConfig.Some? ==> b.chartConfig == a.chartConfig)
    && (a.textualAnswer.Some? ==> b.textualAnswer == a.textualAnswer)
  }

  /** The broadcast sequence of one run: five snapshots whose statuses are
      processing four times and then done; each snapshot keeps everything the
      earlier ones had, the last one is the record left behind, and `updated`
      follows the clock. */
  lemma ProcessInquiryTrace(inq: Inquiry, a: Analysis, clock: seq<Time>)
    requires |clock| == PhaseCount
    ensures var r := ProcessInquiry(inq, a, clock);
      && |r.trace| == PhaseCount
      && r.trace[PhaseCount - 1] == r.final
      && (forall k :: 0 <= k < PhaseCount - 1 ==> r.trace[k].status == Processing)
      && r.final.status == Done
      && (forall k :: 0 <= k < PhaseCount ==> r.trace[k].updated == clock[k])
      && Keeps(inq, r.trace[0])
  {
  }

  /** Starting from a blank record, no snapshot clears or rewrites a field an
      earlier snapshot (or the submitted record) already had. */
  lemma NeverCleared(inq: Inquiry, a: Analysis, clock: seq<Time>)
    requires |clock| == PhaseCount && Blank(inq)
    ensures var r := ProcessInquiry(inq, a, clock);
      && (forall k :: 0 <= k < PhaseCount ==> Keeps(inq, r.trace[k]))
      && (forall j, k :: 0 <= j <= k < PhaseCount ==> Keeps(r.trace[j], r.trace[k]))
  {
  }

  /** `updated` never goes backwards across the broadcasts of a run, given a
      clock that does not go backwards. */
  lemma UpdatedNonDecreasing(inq: Inquiry, a: Analysis, clock: seq<Time>)
    requires |clock| == PhaseCount
    requires NonDecreasing(clock) && inq.updated <= clock[0]
    ensures var r := ProcessInquiry(inq, a, clock);
      && inq.updated <= r.trace[0].updated
      && forall j, k :: 0 <= j <= k < |r.trace| ==> r.trace[j].updated <= r.trace[k].updated
  {
    ProcessInquiryTrace(inq, a, clock);
  }

  /** Starting from a blank record, the fields appear in pipeline order: the
      time frame, then the query text, then the data with its chart, then the
      narrative. */
  lemma PhaseOrder(inq: Inquiry, a: Analysis, clock: seq<Time>)
    requires |clock| == PhaseCount && Blank(inq)
    ensures var t := ProcessInquiry(inq, a, clock).trace;
      && Blank(t[0])
      && t[1].timeFrame.Some? && t[1].sql.None? && t[1].tableData.None? && t[1].textualAnswer.None?
      && t[1].chartType.None? && t[1].chartConfig.None?
      && t[2].sql.Some? && t[2].tableData.None? && t[2].chartType.None? && t[2].chartConfig.None?
      && t[2].textualAnswer.None?
      && t[3].tableData.Some? && t[3].chartType.Some? && t[3].chartConfig.Some? && t[3].textualAnswer.None?
      && t[4].textualAnswer.Some?
  {
  }

  /** A finished run holds the analysis in full, and the fixed time frame. */
  lemma ProcessInquiryResult(inq: Inquiry, a: Analysis, clock: seq<Time>)
    requires |clock| == PhaseCount
    ensures var f := ProcessInquiry(inq, a, clock).final;
      && f.id == inq.id && f.sessionId == inq.sessionId && f.question == inq.question
      && f.created == inq.created && f.updated == clock[PhaseCount - 1]
      && f.timeFrame == Some(TimeFrameLabel)
      && f.sql == Some(a.sql)
      && f.tableData == Some(a.tableData)
      && f.chartType == Some(a.chartType)
      && f.chartConfig == Some(a.chartConfig)
      && f.textualAnswer == Some(a.textualAnswer)
  {
  }

  /** What the analysis holds. The data, chart and narrative come from the
      table drawn at `d.table`; the query text comes from the keyword rules
      with their own draw, so it need not name the same table. */
  lemma AnalyzeResult(question: string, d: Draws, db: Dataset)
    requires Usable(db)
    ensures var a := Analyze(question, d, db);
      var table := TableTypes[d.table];
      var chart := ChartStep(db.RowsOf(table), table, d);
      && a.sql == GenerateMockSql(question, d.sqlPick)
      && a.textualAnswer == GenerateTextualAnswer(question, table)
      && a.tableData == chart.rows && a.chartType == chart.chartType && a.chartConfig == chart.config
  {
  }

  /** Without a throw the chart is the one chosen for the table over the
      transformed rows; with one, the raw rows under a bar chart whose single
      series is the second key of the first row. */
  lemma ChartStepResult(raw: seq<Row>, table: Table, d: Draws)
    requires |raw| > 0 && |raw[0]| >= 2
    ensures var c := ChartStep(raw, table, d);
      var info := DetermineChartType(table, d.chartCoin, d.monthlyCoin);
      && (!d.transformThrows ==>
            c == Chart(TransformProductData(raw, Some(info.config)), info.chartType, info.config))
      && (d.transformThrows ==>
            && c.rows == raw && c.chartType == Bar
            && c.config.xAxis.key == Keys(raw[0])[0]
            && |c.config.yAxes| == 1 && c.config.yAxes[0].key == Keys(raw[0])[1])
  {
  }

  /** Whatever the draws, the chart has at least one series, and the rows are
      either the raw rows or the six month rows of the pivot, the latter only
      under a "month" x-axis and without a throw. Without a throw the rows are
      the raw rows transformed under the chart's own config, and the chart
      type is one the table allows. After a throw the chart is a bar chart
      over the raw rows whose x-axis is the first property of the first row
      and whose single series is its second property. */
  lemma ChartStepShape(raw: seq<Row>, table: Table, d: Draws)
    requires |raw| > 0 && |raw[0]| >= 2
    ensures var c := ChartStep(raw, table, d);
      && |c.config.yAxes| > 0
      && (c.rows == raw || (|c.rows| == 6 && c.config.xAxis.key == "month" && !d.transformThrows))
      && (!d.transformThrows ==>
            && c.rows == TransformProductData(raw, Some(c.config))
            && (table == Sales ==> c.chartType in {MultiLine, MultiBar})
            && (table == Customers ==> c.chartType in {Bar, Pie})
            && (table == Products ==> c.chartType in {Bar, Line, MultiLine}))
      && (d.transformThrows ==>
            && c.rows == raw && c.chartType == Bar
            && c.config.xAxis.key == Keys(raw[0])[0]
            && |c.config.yAxes| == 1 && c.config.yAxes[0].key == Keys(raw[0])[1]
            && Get(raw[0], c.config.xAxis.key).Some?
            && Get(raw[0], c.config.yAxes[0].key).Some?)
  {
    ChartStepResult(raw, table, d);
    var info := DetermineChartType(table, d.chartCoin, d.monthlyCoin);
    ChartChoices(table, d.chartCoin, d.monthlyCoin);
    if d.transformThrows {
      GetPresent(raw[0], Keys(raw[0])[0]);
      GetPresent(raw[0], Keys(raw[0])[1]);
    } else if ShouldPivot(raw, Some(info.config)) {
      TransformPivot(raw, Some(info.config));
    }
  }

  /** The analysis follows the drawn table: its narrative is that table's and
      no other's, its rows are that table's rows or, without a throw, their
      six-row pivot under the stored chart config, and its query text is one
      of the three fixed texts. */
  lemma AnalyzeFollowsDrawnTable(question: string, d: Draws, db: Dataset, t: Table)
    requires Usable(db)
    ensures var a := Analyze(question, d, db);
      && (a.textualAnswer == GenerateTextualAnswer(question, t) <==> t == TableTypes[d.table])
      && var raw := db.RowsOf(TableTypes[d.table]);
      && (|| a.tableData == raw
          || (&& !d.transformThrows
              && a.tableData == TransformProductData(raw, Some(a.chartConfig))
              && |a.tableData| == 6))
      && a.sql in {SalesSql, CustomersSql, ProductsSql}
  {
    var table := TableTypes[d.table];
    AnalyzeResult(question, d, db);
    NarrativePerTable(question, question, table, t);
    ChartStepShape(db.RowsOf(table), table, d);
  }

  /** The customer rows reach the chart unchanged, whether or not the chart
      step throws: the customer chart's x-axis is "name", so they never pivot. */
  lemma CustomerRowsKept(raw: seq<Row>, d: Draws)
    requires |raw| > 0 && |raw[0]| >= 2
    ensures ChartStep(raw, Customers, d).rows == raw
  {
    var info := DetermineChartType(Customers, d.chartCoin, d.monthlyCoin);
    ChartChoices(Customers, d.chartCoin, d.monthlyCoin);
    TransformIdentity(raw, Some(info.config));
  }

  /** The query text and the data may describe different tables: a question
      that mentions sales always gets the sales query, while the independent
      draw can still fetch the customer rows and the customer narrative,
      which is not the sales one. */
  lemma SqlAndDataMayDisagree(question: string, d: Draws, db: Dataset)
    requires Usable(db) && Contains(ToLower(question), "sales") && d.table == 1
    ensures var a := Analyze(question, d, db);
      && a.sql == SqlFor(Sales)
      && a.tableData == db.customers
      && a.textualAnswer == GenerateTextualAnswer(question, Customers)
      && a.textualAnswer != GenerateTextualAnswer(question, Sales)
  {
    assert TableTypes[d.table] == Customers;
    SelectTablePriority(question, d.sqlPick);
    AnalyzeResult(question, d, db);
    CustomerRowsKept(db.customers, d);
    NarrativePerTable(question, question, Customers, Sales);
  }

  /** When the product rows carry a monthly series (as the shipped ones do),
      a multi-line chart comes with the data pivoted into six month rows, and
      any other chart keeps the rows as they are. */
  lemma ProductsPivotWhenMultiLine(raw: seq<Row>, d: Draws, j: int)
    requires |raw| > 0 && |raw[0]| >= 2 && !d.transformThrows
    requires 0 <= j < |raw| && HasMonthlySales(raw[j])
    ensures var c := ChartStep(raw, Products, d);
      && (c.chartType == MultiLine ==> |c.rows| == 6)
      && (c.chartType != MultiLine ==> c.rows == raw)
  {
    var info := DetermineChartType(Products, d.chartCoin, d.monthlyCoin);
    ChartChoices(Products, d.chartCoin, d.monthlyCoin);
    if info.chartType == MultiLine {
      TransformPivot(raw, Some(info.config));
    } else {
      TransformIdentity(raw, Some(info.config));
    }
  }

  /** The shipped products table has the monthly series that makes it pivot. */
  lemma ShippedProductsHaveSeries()
    ensures |MockBusinessData.products| > 0 && HasMonthlySales(MockBusinessData.products[0])
  {
    assert Get(ProductRows[0], "monthlySales") == Some(Series([120, 125, 118, 130, 142, 155]));
  }
}

=== FILE: mockdata.dfy ===
/** The fixed mock dataset the server answers every question from. */
module MockData {
  import opened Values

  /** The three subject tables, in the order of the server's `tableTypes` list. */
  datatype Table = Sales | Customers | Products

  /** `tableTypes`, from which a random index picks a table. */
  const TableTypes: seq<Table> := [Sales, Customers, Products]

  /** An index drawn as `Math.floor(Math.random() * tableTypes.length)`. */
  type TableIndex = i: int | 0 <= i < 3

  function SalesRow(month: string, revenue: int, expenses: int, profit: int, region: string): Row
  {
    [Field("month", Str(month)), Field("revenue", Num(revenue)), Field("expenses", Num(expenses)),
     Field("profit", Num(profit)), Field("region", Str(region))]
  }

  function CustomerRow(id: int, name: string, segment: string, annualSpend: int, loyaltyYears: int, lastPurchase: string): Row
  {
    [Field("id", Num(id)), Field("name", Str(name)), Field("segment", Str(segment)),
     Field("annualSpend", Num(annualSpend)), Field("loyaltyYears", Num(loyaltyYears)),
     Field("lastPurchase", Str(lastPurchase))]
  }

  /** `unitPrice` is kept in integer cents. */
  function ProductRow(id: string, name: string, category: string, unitPriceCents: int, monthlySales: seq<int>): Row
  {
    [Field("id", Str(id)), Field("name", Str(name)), Field("category", Str(category)),
     Field("unitPrice", Num(unitPriceCents)), Field("monthlySales", Series(monthlySales))]
  }

  /** The sales figures, one tuple per row: month, revenue, expenses, profit
      and region. */
  const SalesFigures: seq<(string, int, int, int, string)> := [
    ("Jan", 45000, 32000, 13000, "North"),
    ("Feb", 52000, 34000, 18000, "North"),
    ("Mar", 61000, 36000, 25000, "North"),
    ("Apr", 58000, 35000, 23000, "North"),
    ("May", 63000, 37000, 26000, "North"),
    ("Jun", 72000, 39000, 33000, "North"),
    ("Jan", 38000, 28000, 10000, "South"),
    ("Feb", 41000, 29000, 12000, "South"),
    ("Mar", 45000, 31000, 14000, "South"),
    ("Apr", 49000, 32000, 17000, "South"),
    ("May", 51000, 33000, 18000, "South"),
    ("Jun", 56000, 35000, 21000, "South")
  ]

  const SalesRows: seq<Row> :=
    seq(|SalesFigures|, i requires 0 <= i < |SalesFigures| =>
      SalesRow(SalesFigures[i].0, SalesFigures[i].1, SalesFigures[i].2, SalesFigures[i].3, SalesFigures[i].4))

  const CustomerRows: seq<Row> := [
    CustomerRow(1, "Acme Corp", "Enterprise", 120000, 5, "2025-03-15"),
    CustomerRow(2, "TechStart Inc", "SMB", 45000, 2, "2025-04-01"),
    CustomerRow(3, "BigRetail", "Enterprise", 210000, 7, "2025-03-28"),
    CustomerRow(4, "Local Shop", "Small", 15000, 1, "2025-02-10"),
    CustomerRow(5, "MidMarket Solutions", "SMB", 78000, 3, "2025-03-22"),
    CustomerRow(6, "Global Industries", "Enterprise", 350000, 10, "2025-04-05"),
    CustomerRow(7, "Corner Cafe", "Small", 9000, 2, "2025-03-30"),
    CustomerRow(8, "Tech Giants", "Enterprise", 500000, 4, "2025-04-10")
  ]

  const ProductRows: seq<Row> := [
    ProductRow("P001", "Basic Plan", "Subscription", 2999, [120, 125, 118, 130, 142, 155]),
    ProductRow("P002", "Premium Plan", "Subscription", 9999, [45, 48, 52, 55, 60, 62]),
    ProductRow("P003", "Enterprise Solution", "Service", 59999, [12, 15, 14, 18, 20, 22]),
    ProductRow("P004", "Data Package", "Add-on", 4999, [67, 70, 65, 72, 80, 85]),
    ProductRow("P005", "API Access", "Add-on", 19999, [28, 30, 32, 35, 40, 42]),
    ProductRow("P006", "Consulting Hours", "Service", 15000, [50, 45, 48, 52, 55, 60])
  ]


  /** The three tables of `mockBusinessData`. The pipeline takes the dataset
      as an argument; `MockBusinessData` is the one the server ships with. */
  datatype Dataset = Dataset(sales: seq<Row>, customers: seq<Row>, products: seq<Row>)
  {
    /** `mockBusinessData[table]`. */
    function RowsOf(t: Table): seq<Row>
    {
      match t
      case Sales => sales
      case Customers => customers
      case Products => products
    }
  }

  const MockBusinessData := Dataset(SalesRows, CustomerRows, ProductRows)

  /** Every table has a first row with at least two properties, which the
      pipeline's fallback chart reads. */
  ghost predicate Usable(db: Dataset)
  {
    forall t: Table :: |db.RowsOf(t)| > 0 && |db.RowsOf(t)[0]| >= 2
  }

  lemma MockBusinessDataUsable()
    ensures Usable(MockBusinessData)
  {
    forall t: Table ensures |MockBusinessData.RowsOf(t)| > 0 && |MockBusinessData.RowsOf(t)[0]| >= 2 {
      match t
      case Sales =>
      case Customers =>
      case Products =>
    }
  }
}

=== FILE: server.dfy ===
/** The REST surface of the backend: the two in-memory stores, the five
    handlers and the broadcast channel. Identifiers, clock readings and the
    pipeline's draws are inputs; the transport is left out. */
module Server {
  import opened Values
  import opened Text
  import opened MockData
  import opened Analytics
  import opened Lifecycle

  datatype Session = Session(id: string, created: Time, inquiries: seq<string>)

  /** The server's state: the session and inquiry stores, and every record
      broadcast on `inquiry_updated` so far, oldest first. */
  datatype Backend = Backend(
    sessions: map<string, Session>,
    inquiries: map<string, Inquiry>,
    broadcasts: seq<Inquiry>)

  const Empty := Backend(map[], map[], [])

  /** The error replies, each with its HTTP status and `error` text. */
  datatype ApiError = SessionNotFound | QuestionRequired | InquiryNotFound | ProcessingNotComplete
  {
    function Code(): int
    {
      match this
      case SessionNotFound => 404
      case QuestionRequired => 400
      case InquiryNotFound => 404
      case ProcessingNotComplete => 400
    }

    function Message(): string
    {
      match this
      case SessionNotFound => "Session not found"
      case QuestionRequired => "Question is required"
      case InquiryNotFound => "Inquiry not found"
      case ProcessingNotComplete => "Inquiry processing not complete"
    }
  }

  /** The error replies are client errors: "not found" (404) exactly for the
      two unknown-identifier errors, 400 for the others, and each has its own
      message. */
  lemma ErrorReplies(e1: ApiError, e2: ApiError)
    ensures e1.Code() == 404 <==> e1 == SessionNotFound || e1 == InquiryNotFound
    ensures e1.Code() == 400 <==> e1 == QuestionRequired || e1 == ProcessingNotComplete
    ensures e1.Message() == e2.Message() <==> e1 == e2
  {
    assert |SessionNotFound.Message()| == 17 && |QuestionRequired.Message()| == 20;
    assert |InquiryNotFound.Message()| == 17 && |ProcessingNotComplete.Message()| == 31;
    assert SessionNotFound.Message()[0] == 'S' && InquiryNotFound.Message()[0] == 'I';
  }

  /** A reply: a success status with its body, or an error. */
  datatype Response<T> = Ok(code: int, value: T) | Err(error: ApiError)

  /** A handler's effect: the state after it and its reply. */
  datatype Step<T> = Step(backend: Backend, response: Response<T>)

  /** The `question` field of a submission body: absent (or null) is None. */
  predicate Given(question: Option<string>)
  {
    question.Some? && question.value != ""
  }

  // ---------------------------------------------------------------------------
  // Handlers

  /** `POST /api/sessions` with the identifier `id` drawn for it; an existing
      session under the same identifier would be replaced. */
  function CreateSession(b: Backend, id: string, now: Time): (s: Step<string>)
    ensures s.response == Ok(201, id)
    ensures s.backend.sessions.Keys == b.sessions.Keys + {id}
    ensures s.backend.sessions[id].inquiries == []
    ensures forall k :: k in b.sessions && k != id ==> s.backend.sessions[k] == b.sessions[k]
    ensures s.backend.inquiries == b.inquiries && s.backend.broadcasts == b.broadcasts
  {
    Step(b.(sessions := b.sessions[id := Session(id, now, [])]), Ok(201, id))
  }

  /** `GET /api/sessions/:sessionId`. */
  function GetSession(b: Backend, id: string): (r: Response<Session>)
    ensures r.Err? <==> id !in b.sessions
    ensures r.Err? ==> r.error == SessionNotFound
    ensures r.Ok? ==> r.code == 200 && r.value == b.sessions[id]
  {
    if id in b.sessions then Ok(200, b.sessions[id]) else Err(SessionNotFound)
  }

  /** The record a submission stores before processing starts. */
  function NewInquiry(id: string, sessionId: string, question: string, created: Time, updated: Time): Inquiry
  {
    Inquiry(id, sessionId, question, Created, created, updated, None, None, None, None, None, None)
  }

  /** `POST /api/sessions/:sessionId/inquiries` with the identifier drawn for
      the new record and three clock readings: `created`, `updated`, and the
      pipeline's first phase. The first phase runs before the 202 reply is
      sent, so the stored record is already processing and one broadcast has
      gone out. An unknown session is reported before a missing question. */
  function SubmitInquiry(b: Backend, sessionId: string, question: Option<string>,
                         inquiryId: string, now: seq<Time>): (s: Step<string>)
    requires |now| == 3
    ensures s.response.Err? ==> s.backend == b
    ensures s.response.Ok? ==>
      && s.backend.sessions.Keys == b.sessions.Keys
      && s.backend.inquiries.Keys == b.inquiries.Keys + {inquiryId}
      && (forall k :: k in b.sessions && k != sessionId ==> s.backend.sessions[k] == b.sessions[k])
      && sessionId in b.sessions
      && s.backend.sessions[sessionId]
           == b.sessions[sessionId].(inquiries := b.sessions[sessionId].inquiries + [inquiryId])
      && (forall k :: k in b.inquiries && k != inquiryId ==> s.backend.inquiries[k] == b.inquiries[k])
  {
    if sessionId !in b.sessions then Step(b, Err(SessionNotFound))
    else if !Given(question) then Step(b, Err(QuestionRequired))
    else
      var inq := NewInquiry(inquiryId, sessionId, question.value, now[0], now[1]);
      var session := b.sessions[sessionId];
      var started := StartProcessing(inq, now[2]);
      Step(Backend(b.sessions[sessionId := session.(inquiries := session.inquiries + [inquiryId])],
                   b.inquiries[inquiryId := started],
                   b.broadcasts + [started]),
           Ok(202, inquiryId))
  }

  /** Phases 2 to 5 of record `id`'s pipeline, storing the analysis `a`;
      `clock` holds their readings. Each phase broadcasts the record, and
      nothing outside that record changes. */
  function FinishWith(b: Backend, id: string, a: Analysis, clock: seq<Time>): (b': Backend)
    requires id in b.inquiries && |clock| == 4
    ensures b'.sessions == b.sessions
    ensures b'.inquiries.Keys == b.inquiries.Keys
    ensures forall k :: k in b.inquiries && k != id ==> b'.inquiries[k] == b.inquiries[k]
    ensures |b'.broadcasts| == |b.broadcasts| + 4 && b'.broadcasts[..|b.broadcasts|] == b.broadcasts
    ensures b'.broadcasts[|b'.broadcasts| - 1] == b'.inquiries[id]
    ensures var inq := b'.inquiries[id];
      && inq.id == b.inquiries[id].id && inq.sessionId == b.inquiries[id].sessionId
      && inq.question == b.inquiries[id].question
      && inq.status == Done && inq.updated == clock[3]
      && inq.sql == Some(a.sql) && inq.textualAnswer == Some(a.textualAnswer)
  {
    var run := ContinueProcessing(b.inquiries[id], a, clock);
    b.(inquiries := b.inquiries[id := run.final], broadcasts := b.broadcasts + run.trace)
  }

  /** The rest of record `id`'s pipeline against the dataset `db` under the
      draws `d`, analysing the question the record holds. */
  function FinishProcessing(b: Backend, id: string, d: Draws, db: Dataset, clock: seq<Time>): Backend
    requires id in b.inquiries && Usable(db) && |clock| == 4
  {
    FinishWith(b, id, Analyze(b.inquiries[id].question, d, db), clock)
  }

  /** `GET /api/inquiries/:inquiryId`. */
  function GetInquiry(b: Backend, id: string): (r: Response<Inquiry>)
    ensures r.Err? <==> id !in b.inquiries
    ensures r.Err? ==> r.error == InquiryNotFound
    ensures r.Ok? ==> r.code == 200 && r.value == b.inquiries[id]
  {
    if id in b.inquiries then Ok(200, b.inquiries[id]) else Err(InquiryNotFound)
  }

  /** What `GET /api/inquiries/:inquiryId/stream` does: an error reply, a
      crash (a done record without a narrative, which `answer.length` cannot
      read), or the chunks written, one per timer tick, and whether the
      response was ended. */
  datatype StreamReply = Rejected(error: ApiError) | Crashed | Streamed(writes: seq<string>, ended: bool)

  /** The chunks a stream over `answer` writes: each character on its own,
      in order. */
  function StreamWrites(answer: string): seq<string>
  {
    seq(|answer|, i requires 0 <= i < |answer| => [answer[i]])
  }

  /** The single-character chunks put back together give the narrative. */
  lemma {:induction false} StreamWritesConcat(answer: string)
    ensures Concat(StreamWrites(answer)) == answer
    decreases |answer|
  {
    if |answer| > 0 {
      var init := answer[..|answer| - 1];
      var last := answer[|answer| - 1];
      StreamWritesConcat(init);
      assert StreamWrites(answer) == StreamWrites(init) + [[last]];
      ConcatSnoc(StreamWrites(init), [last]);
      assert answer == init + [last];
    }
  }

  /** The stream handler with its timer run to the end: every tick writes the
      next character, and the tick after the last one ends the response. */
  method StreamAnswer(b: Backend, id: string) returns (r: StreamReply)
    ensures id !in b.inquiries <==> r == Rejected(InquiryNotFound)
    ensures id in b.inquiries && b.inquiries[id].status != Done <==> r == Rejected(ProcessingNotComplete)
    ensures r.Crashed? <==> id in b.inquiries && b.inquiries[id].status == Done && b.inquiries[id].textualAnswer.None?
    ensures r.Streamed? <==> id in b.inquiries && b.inquiries[id].status == Done && b.inquiries[id].textualAnswer.Some?
    ensures r.Streamed? ==>
      && id in b.inquiries && b.inquiries[id].textualAnswer.Some?
      && r.ended
      && r.writes == StreamWrites(b.inquiries[id].textualAnswer.value)
      && |r.writes| == |b.inquiries[id].textualAnswer.value|
      && (forall i :: 0 <= i < |r.writes| ==> r.writes[i] == [b.inquiries[id].textualAnswer.value[i]])
      && Concat(r.writes) == b.inquiries[id].textualAnswer.value
  {
    if id !in b.inquiries {
      return Rejected(InquiryNotFound);
    }
    var inq := b.inquiries[id];
    if inq.status != Done {
      return Rejected(ProcessingNotComplete);
    }
    if inq.textualAnswer.None? {
      return Crashed;
    }
    var answer := inq.textualAnswer.value;
    var writes: seq<string> := [];
    var index := 0;
    var ended := false;
    while !ended
      invariant 0 <= index <= |answer|
      invariant ended ==> index == |answer|
      invariant |writes| == index
      invariant forall i :: 0 <= i < index ==> writes[i] == [answer[i]]
      invariant Concat(writes) == answer[..index]
      decreases |answer| - index, !ended
    {
      if index < |answer| {
        ConcatSnoc(writes, [answer[index]]);
        assert answer[..index + 1] == answer[..index] + [answer[index]];
        writes := writes + [[answer[index]]];
        index := index + 1;
      } else {
        ended := true;
      }
    }
    assert answer[..index] == answer;
    assert writes == StreamWrites(answer);
    return Streamed(writes, ended);
  }

  // ---------------------------------------------------------------------------
  // Store invariant

  /** The stores agree with each other: every session is filed under its own
      identifier and lists only inquiries that name it; every inquiry is filed
      under its own identifier, belongs to a stored session that lists it, and
      holds its narrative once done. */
  ghost predicate Valid(b: Backend)
  {
    && (forall sid :: sid in b.sessions ==> b.sessions[sid].id == sid)
    && (forall sid, iid :: sid in b.sessions && iid in b.sessions[sid].inquiries ==>
          iid in b.inquiries && b.inquiries[iid].sessionId == sid)
    && (forall iid :: iid in b.inquiries ==>
          && b.inquiries[iid].id == iid
          && b.inquiries[iid].sessionId in b.sessions
          && iid in b.sessions[b.inquiries[iid].sessionId].inquiries)
    && (forall iid :: iid in b.inquiries && b.inquiries[iid].status == Done ==>
          b.inquiries[iid].textualAnswer.Some?)
  }

  lemma EmptyValid()
    ensures Valid(Empty)
  {
  }

  /** A session created under an unused identifier keeps the stores consistent. */
  lemma CreateSessionValid(b: Backend, id: string, now: Time)
    requires Valid(b) && id !in b.sessions
    ensures Valid(CreateSession(b, id, now).backend)
  {
    var b' := CreateSession(b, id, now).backend;
    forall iid | iid in b'.inquiries
      ensures b'.inquiries[iid].sessionId in b'.sessions
      ensures iid in b'.sessions[b'.inquiries[iid].sessionId].inquiries
    {
      assert b'.inquiries[iid].sessionId != id;
    }
  }

  /** A submission under an unused inquiry identifier keeps the stores
      consistent. */
  lemma SubmitInquiryValid(b: Backend, sessionId: string, question: Option<string>,
                           inquiryId: string, now: seq<Time>)
    requires Valid(b) && inquiryId !in b.inquiries && |now| == 3
    ensures Valid(SubmitInquiry(b, sessionId, question, inquiryId, now).backend)
  {
    if sessionId in b.sessions && Given(question) {
      var b' := SubmitInquiry(b, sessionId, question, inquiryId, now).backend;
      forall sid, iid | sid in b'.sessions && iid in b'.sessions[sid].inquiries
        ensures iid in b'.inquiries && b'.inquiries[iid].sessionId == sid
      {
        if sid == sessionId && iid != inquiryId {
          assert iid in b.sessions[sid].inquiries;
        }
        if sid != sessionId {
          assert iid in b.sessions[sid].inquiries;
          assert iid != inquiryId;
        }
      }
      forall iid | iid in b'.inquiries
        ensures b'.inquiries[iid].sessionId in b'.sessions
        ensures iid in b'.sessions[b'.inquiries[iid].sessionId].inquiries
      {
        if iid != inquiryId {
          var sid := b.inquiries[iid].sessionId;
          assert iid in b.sessions[sid].inquiries;
          if sid == sessionId {
            assert b'.sessions[sid].inquiries == b.sessions[sid].inquiries + [inquiryId];
          }
        }
      }
    }
  }

  /** Finishing a pipeline keeps the stores consistent. */
  lemma FinishProcessingValid(b: Backend, id: string, d: Draws, db: Dataset, clock: seq<Time>)
    requires Valid(b) && id in b.inquiries && Usable(db) && |clock| == 4
    ensures Valid(FinishProcessing(b, id, d, db, clock))
  {
    var b' := FinishProcessing(b, id, d, db, clock);
    assert b'.inquiries[id].id == id && b'.inquiries[id].sessionId == b.inquiries[id].sessionId;
    assert b'.inquiries[id].textualAnswer.Some?;
  }

  /** In a consistent state the stream handler never crashes: a done record
      always has its narrative. */
  lemma ValidNeverCrashes(b: Backend, id: string)
    requires Valid(b)
    ensures !(id in b.inquiries && b.inquiries[id].status == Done && b.inquiries[id].textualAnswer.None?)
  {
  }

  // ---------------------------------------------------------------------------
  // Handler outcomes

  /** The submission's reply: 404 exactly when the session is unknown, else
      400 exactly when the question is missing or empty, else 202 with the
      new identifier. A whitespace-only question is accepted. */
  lemma SubmitInquiryReply(b: Backend, sessionId: string, question: Option<string>,
                           inquiryId: string, now: seq<Time>)
    requires |now| == 3
    ensures var r := SubmitInquiry(b, sessionId, question, inquiryId, now).response;
      && (r == Err(SessionNotFound) <==> sessionId !in b.sessions)
      && (r == Err(QuestionRequired) <==> sessionId in b.sessions && !Given(question))
      && (r == Ok(202, inquiryId) <==> sessionId in b.sessions && Given(question))
  {
  }

  /** An accepted submission stores the question as sent, files the record
      under its session, leaves it processing with `updated` at the third
      reading, and broadcasts exactly that record. */
  lemma SubmitInquiryStores(b: Backend, sessionId: string, question: Option<string>,
                            inquiryId: string, now: seq<Time>)
    requires |now| == 3 && sessionId in b.sessions && Given(question)
    ensures var b' := SubmitInquiry(b, sessionId, question, inquiryId, now).backend;
      && inquiryId in b'.inquiries
      && var inq := b'.inquiries[inquiryId];
      && inq.id == inquiryId && inq.sessionId == sessionId && inq.question == question.value
      && inq.status == Processing && inq.created == now[0] && inq.updated == now[2]
      && Blank(inq)
      && b'.sessions[sessionId].inquiries == b.sessions[sessionId].inquiries + [inquiryId]
      && b'.broadcasts == b.broadcasts + [inq]
  {
  }

  /** A session just created answers its lookup with an empty inquiry list. */
  lemma CreateThenGetSession(b: Backend, id: string, now: Time)
    ensures GetSession(CreateSession(b, id, now).backend, id) == Ok(200, Session(id, now, []))
  {
  }

  /** An accepted submission followed by its pipeline leaves a done record
      holding the narrative of the drawn table, and streaming it writes that
      narrative character by character. Until then the stream is refused. */
  lemma SubmitThenFinish(b: Backend, sessionId: string, question: string, inquiryId: string,
                         now: seq<Time>, d: Draws, db: Dataset, clock: seq<Time>)
    requires |now| == 3 && |clock| == 4 && Usable(db)
    requires sessionId in b.sessions && question != ""
    ensures var b1 := SubmitInquiry(b, sessionId, Some(question), inquiryId, now).backend;
      && inquiryId in b1.inquiries
      && b1.inquiries[inquiryId].status != Done
      && var b2 := FinishProcessing(b1, inquiryId, d, db, clock);
      && b2.inquiries[inquiryId].status == Done
      && b2.inquiries[inquiryId].question == question
      && b2.inquiries[inquiryId].textualAnswer == Some(GenerateTextualAnswer(question, TableTypes[d.table]))
      && b2.inquiries[inquiryId].sql == Some(GenerateMockSql(question, d.sqlPick))
      && |b2.broadcasts| == |b.broadcasts| + PhaseCount
  {
    var b1 := SubmitInquiry(b, sessionId, Some(question), inquiryId, now).backend;
    SubmitInquiryStores(b, sessionId, Some(question), inquiryId, now);
    AnalyzeResult(question, d, db);
  }

  /** The handlers run exactly `processInquiry`: the broadcasts a submission
      and its pipeline add are the run's snapshots in order, and the stored
      record is the one the run leaves behind. So every fact proved about
      `ProcessInquiry` holds of the server's broadcasts. */
  lemma {:induction false} SubmitThenFinishRunsPipeline(b: Backend, sessionId: string, question: string,
                                                        inquiryId: string, now: seq<Time>, a: Analysis, clock: seq<Time>)
    requires |now| == 3 && |clock| == 4
    requires sessionId in b.sessions && question != ""
    ensures var b1 := SubmitInquiry(b, sessionId, Some(question), inquiryId, now).backend;
      && inquiryId in b1.inquiries
      && var run := ProcessInquiry(NewInquiry(inquiryId, sessionId, question, now[0], now[1]), a, [now[2]] + clock);
      && var b2 := FinishWith(b1, inquiryId, a, clock);
      && b2.broadcasts == b.broadcasts + run.trace
      && b2.inquiries[inquiryId] == run.final
  {
    var inq := NewInquiry(inquiryId, sessionId, question, now[0], now[1]);
    var b1 := SubmitInquiry(b, sessionId, Some(question), inquiryId, now).backend;
    var s0 := StartProcessing(inq, now[2]);
    assert b1.inquiries[inquiryId] == s0 && b1.broadcasts == b.broadcasts + [s0];
    assert ([now[2]] + clock)[0] == now[2] && ([now[2]] + clock)[1..] == clock;
    var rest := ContinueProcessing(s0, a, clock);
    assert b.broadcasts + [s0] + rest.trace == b.broadcasts + ([s0] + rest.trace);
  }
}

=== FILE: table_view.dfy ===
/** The data table's logic: which columns it shows, the sort-column state
    machine and the sorted rows. String comparison (`localeCompare`) is an
    opaque ordering passed in as an argument. */
module TableView {
  import opened Values

  datatype Direction = Asc | Desc

  /** The sort column (None until a header is clicked) and its direction. */
  datatype SortState = SortState(key: Option<string>, dir: Direction)

  const Unsorted := SortState(None, Asc)

  /** The column headers: nothing is shown for missing or empty data;
      otherwise the own keys of the first row, in insertion order, each once. */
  function Headers(data: Option<seq<Row>>): (h: Option<seq<string>>)
    ensures h.None? <==> data.None? || |data.value| == 0
    ensures h.Some? ==> |h.value| == |data.value[0]|
    ensures h.Some? ==> forall i :: 0 <= i < |h.value| ==> h.value[i] == data.value[0][i].key
    ensures h.Some? ==> forall k :: k in h.value <==> Get(data.value[0], k).Some?
    ensures h.Some? && UniqueKeys(data.value[0]) ==>
      forall i, j :: 0 <= i < j < |h.value| ==> h.value[i] != h.value[j]
  {
    if data.None? || |data.value| == 0 then None
    else
      var row := data.value[0];
      forall k ensures k in Keys(row) <==> Get(row, k).Some? {
        GetPresent(row, k);
      }
      Some(Keys(row))
  }

  // ---------------------------------------------------------------------------
  // handleSort

  function Flip(d: Direction): Direction
  {
    if d == Asc then Desc else Asc
  }

  /** A click on header `key`. */
  function HandleSort(st: SortState, key: string): SortState
  {
    if st.key == Some(key) then st.(dir := Flip(st.dir)) else SortState(Some(key), Asc)
  }

  /** Clicking the current column keeps it and flips the direction; clicking
      it twice restores the state. */
  lemma HandleSortSameKey(st: SortState, key: string)
    requires st.key == Some(key)
    ensures HandleSort(st, key).key == st.key
    ensures HandleSort(st, key).dir != st.dir
    ensures HandleSort(HandleSort(st, key), key) == st
  {
  }

  /** Clicking another column selects it in ascending order. */
  lemma HandleSortNewKey(st: SortState, key: string)
    requires st.key != Some(key)
    ensures HandleSort(st, key) == SortState(Some(key), Asc)
    ensures HandleSort(HandleSort(st, key), key) == SortState(Some(key), Desc)
  {
  }

  /** The table opens unsorted, showing the rows as given; the first click
      on a header sorts that column ascending. */
  lemma InitiallyUnsorted(rows: seq<Row>, key: string, order: (string, string) -> int)
    ensures SortedData(rows, Unsorted, order) == rows
    ensures HandleSort(Unsorted, key) == SortState(Some(key), Asc)
  {
  }

  // ---------------------------------------------------------------------------
  // The comparator

  predicate IsNum(v: Option<Value>)
  {
    v.Some? && v.value.Num?
  }

  /** The comparator: numbers by difference, anything else by the string
      ordering `order` on `String(value)`; `desc` swaps the operands. */
  function Compare(a: Row, b: Row, key: string, dir: Direction, order: (string, string) -> int): int
  {
    var x := Get(a, key);
    var y := Get(b, key);
    if IsNum(x) && IsNum(y) then
      (if dir == Asc then x.value.n - y.value.n else y.value.n - x.value.n)
    else if dir == Asc then order(ToText(x), ToText(y))
    else order(ToText(y), ToText(x))
  }

  /** `Array.prototype.sort` is stable: each row is placed after every row
      that does not compare greater than it. */
  function Insert(x: Row, s: seq<Row>, key: string, dir: Direction, order: (string, string) -> int): seq<Row>
  {
    if |s| == 0 then [x]
    else if Compare(x, s[0], key, dir, order) < 0 then [x] + s
    else [s[0]] + Insert(x, s[1..], key, dir, order)
  }

  function Sort(xs: seq<Row>, key: string, dir: Direction, order: (string, string) -> int): seq<Row>
  {
    if |xs| == 0 then []
    else Insert(xs[|xs| - 1], Sort(xs[..|xs| - 1], key, dir, order), key, dir, order)
  }

  /** `sortedData`: the rows as given while no column is selected (or the
      selected key is empty); otherwise a sorted copy. */
  function SortedData(rows: seq<Row>, st: SortState, order: (string, string) -> int): seq<Row>
  {
    if st.key.None? || st.key.value == "" then rows
    else Sort(rows, st.key.value, st.dir, order)
  }

  // ---------------------------------------------------------------------------
  // Permutation

  lemma {:induction false} InsertPermutes(x: Row, s: seq<Row>, key: string, dir: Direction, order: (string, string) -> int)
    ensures multiset(Insert(x, s, key, dir, order)) == multiset(s) + multiset{x}
    ensures |Insert(x, s, key, dir, order)| == |s| + 1
  {
    if |s| > 0 && Compare(x, s[0], key, dir, order) >= 0 {
      InsertPermutes(x, s[1..], key, dir, order);
      assert s == [s[0]] + s[1..];
    }
  }

  lemma {:induction false} SortPermutes(xs: seq<Row>, key: string, dir: Direction, order: (string, string) -> int)
    ensures multiset(Sort(xs, key, dir, order)) == multiset(xs)
    ensures |Sort(xs, key, dir, order)| == |xs|
  {
    if |xs| > 0 {
      var init := xs[..|xs| - 1];
      SortPermutes(init, key, dir, order);
      InsertPermutes(xs[|xs| - 1], Sort(init, key, dir, order), key, dir, order);
      assert xs == init + [xs[|xs| - 1]];
    }
  }

  /** The displayed rows are a rearrangement of the given ones, whatever the
      sort state and the string ordering. */
  lemma SortedDataPermutes(rows: seq<Row>, st: SortState, order: (string, string) -> int)
    ensures |SortedData(rows, st, order)| == |rows|
    ensures multiset(SortedData(rows, st, order)) == multiset(rows)
    ensures st.key.None? || st.key.value == "" ==> SortedData(rows, st, order) == rows
  {
    if st.key.Some? && st.key.value != "" {
      SortPermutes(rows, st.key.value, st.dir, order);
    }
  }

  // ---------------------------------------------------------------------------
  // Numeric columns

  ghost predicate AllNumeric(s: seq<Row>, key: string)
  {
    forall i :: 0 <= i < |s| ==> IsNum(Get(s[i], key))
  }

  function NumOf(r: Row, key: string): int
  {
    if IsNum(Get(r, key)) then Get(r, key).value.n else 0
  }

  /** The number a row is ranked by: its value ascending, negated descending. */
  function Rank(r: Row, key: string, dir: Direction): int
  {
    if dir == Asc then NumOf(r, key) else -NumOf(r, key)
  }

  ghost predicate Ranked(s: seq<Row>, key: string, dir: Direction)
  {
    forall i, j :: 0 <= i < j < |s| ==> Rank(s[i], key, dir) <= Rank(s[j], key, dir)
  }

  lemma InsertMembers(x: Row, s: seq<Row>, key: string, dir: Direction, order: (string, string) -> int, y: Row)
    ensures y in Insert(x, s, key, dir, order) <==> y == x || y in s
  {
    InsertPermutes(x, s, key, dir, order);
    assert y in Insert(x, s, key, dir, order) <==> y in multiset(Insert(x, s, key, dir, order));
  }

  /** A row ranked no higher than every row of an ordered list can go in
      front of it. */
  lemma RankedCons(a: Row, t: seq<Row>, key: string, dir: Direction)
    requires Ranked(t, key, dir)
    requires forall j :: 0 <= j < |t| ==> Rank(a, key, dir) <= Rank(t[j], key, dir)
    ensures Ranked([a] + t, key, dir)
  {
    var r := [a] + t;
    forall i, j | 0 <= i < j < |r| ensures Rank(r[i], key, dir) <= Rank(r[j], key, dir) {
      assert r[j] == t[j - 1];
      if i > 0 { assert r[i] == t[i - 1]; }
    }
  }

  lemma InsertNumeric(x: Row, s: seq<Row>, key: string, dir: Direction, order: (string, string) -> int)
    requires AllNumeric(s, key) && IsNum(Get(x, key))
    ensures AllNumeric(Insert(x, s, key, dir, order), key)
  {
    var r := Insert(x, s, key, dir, order);
    forall i | 0 <= i < |r| ensures IsNum(Get(r[i], key)) {
      InsertMembers(x, s, key, dir, order, r[i]);
      if r[i] != x {
        var k :| 0 <= k < |s| && s[k] == r[i];
      }
    }
  }

  lemma {:induction false} InsertRanked(x: Row, s: seq<Row>, key: string, dir: Direction, order: (string, string) -> int)
    requires AllNumeric(s, key) && IsNum(Get(x, key)) && Ranked(s, key, dir)
    ensures Ranked(Insert(x, s, key, dir, order), key, dir)
  {
    if |s| == 0 {
    } else if Compare(x, s[0], key, dir, order) < 0 {
      assert Rank(x, key, dir) < Rank(s[0], key, dir);
      RankedCons(x, s, key, dir);
    } else {
      var tail := s[1..];
      assert AllNumeric(tail, key) by {
        forall i | 0 <= i < |tail| ensures IsNum(Get(tail[i], key)) { assert tail[i] == s[i + 1]; }
      }
      assert Ranked(tail, key, dir) by {
        forall i, j | 0 <= i < j < |tail| ensures Rank(tail[i], key, dir) <= Rank(tail[j], key, dir) {
          assert tail[i] == s[i + 1] && tail[j] == s[j + 1];
        }
      }
      InsertRanked(x, tail, key, dir, order);
      var rest := Insert(x, tail, key, dir, order);
      assert Rank(s[0], key, dir) <= Rank(x, key, dir);
      forall j | 0 <= j < |rest| ensures Rank(s[0], key, dir) <= Rank(rest[j], key, dir) {
        InsertMembers(x, tail, key, dir, order, rest[j]);
        if rest[j] != x {
          var k :| 0 <= k < |tail| && tail[k] == rest[j];
          assert tail[k] == s[k + 1];
        }
      }
      RankedCons(s[0], rest, key, dir);
    }
  }

  lemma {:induction false} SortRanked(xs: seq<Row>, key: string, dir: Direction, order: (string, string) -> int)
    requires AllNumeric(xs, key)
    ensures Ranked(Sort(xs, key, dir, order), key, dir)
    ensures AllNumeric(Sort(xs, key, dir, order), key)
  {
    if |xs| > 0 {
      var init := xs[..|xs| - 1];
      assert AllNumeric(init, key) by {
        forall i | 0 <= i < |init| ensures IsNum(Get(init[i], key)) { assert init[i] == xs[i]; }
      }
      SortRanked(init, key, dir, order);
      InsertRanked(xs[|xs| - 1], Sort(init, key, dir, order), key, dir, order);
      InsertNumeric(xs[|xs| - 1], Sort(init, key, dir, order), key, dir, order);
    }
  }

  /** On a column where every row holds a number, ascending order yields
      non-decreasing values and descending order non-increasing ones. */
  lemma SortedNumericColumn(rows: seq<Row>, key: string, dir: Direction, order: (string, string) -> int)
    requires key != "" && AllNumeric(rows, key)
    ensures var s := SortedData(rows, SortState(Some(key), dir), order);
      && (forall i :: 0 <= i < |s| ==> IsNum(Get(s[i], key)))
      && (dir == Asc ==> forall i, j :: 0 <= i < j < |s| ==> Get(s[i], key).value.n <= Get(s[j], key).value.n)
      && (dir == Desc ==> forall i, j :: 0 <= i < j < |s| ==> Get(s[i], key).value.n >= Get(s[j], key).value.n)
  {
    SortRanked(rows, key, dir, order);
    var s := Sort(rows, key, dir, order);
    forall i, j | 0 <= i < j < |s|
      ensures dir == Asc ==> Get(s[i], key).value.n <= Get(s[j], key).value.n
      ensures dir == Desc ==> Get(s[i], key).value.n >= Get(s[j], key).value.n
    {
      assert Rank(s[i], key, dir) <= Rank(s[j], key, dir);
    }
  }
}

=== FILE: text.dfy ===
/** The string operations the source relies on: `toLowerCase`, `includes`,
    `trim`, and concatenation of received pieces. */
module Text {

  /** `toLowerCase` restricted to ASCII letters; other characters are kept. */
  function LowerChar(c: char): char
  {
    if 'A' <= c <= 'Z' then (c as int + 32) as char else c
  }

  function ToLower(s: string): string
  {
    seq(|s|, i requires 0 <= i < |s| => LowerChar(s[i]))
  }

  /** Lower-casing twice is lower-casing once, so a question that has already
      been lower-cased classifies exactly like the original. */
  lemma ToLowerIdempotent(s: string)
    ensures ToLower(ToLower(s)) == ToLower(s)
    ensures |ToLower(s)| == |s|
  {
  }

  /** `s.includes(t)`: `t` occurs in `s` as a contiguous piece. */
  predicate Contains(s: string, t: string)
    decreases |s|
  {
    |t| <= |s| && (s[..|t|] == t || (|s| > 0 && Contains(s[1..], t)))
  }

  /** The string formed by the pieces in order. */
  function Concat(pieces: seq<string>): string
  {
    if |pieces| == 0 then "" else pieces[0] + Concat(pieces[1..])
  }

  /** Appending one more piece appends its text; this is what lets a receiver
      that accumulates pieces one at a time agree with `Concat`. */
  lemma {:induction false} ConcatSnoc(pieces: seq<string>, p: string)
    ensures Concat(pieces + [p]) == Concat(pieces) + p
  {
    if |pieces| > 0 {
      assert (pieces + [p])[1..] == pieces[1..] + [p];
      ConcatSnoc(pieces[1..], p);
    }
  }

  /** ECMAScript white space and line terminators, the characters `trim` removes. */
  predicate IsWhiteSpace(c: char)
  {
    || c == '\t' || c == '\n' || c == '\U{000B}' || c == '\U{000C}' || c == '\r'
    || c == ' ' || c == '\U{00A0}' || c == '\U{1680}'
    || ('\U{2000}' <= c <= '\U{200A}')
    || c == '\U{2028}' || c == '\U{2029}' || c == '\U{202F}' || c == '\U{205F}'
    || c == '\U{3000}' || c == '\U{FEFF}'
  }

  function TrimStart(s: string): string
  {
    if |s| > 0 && IsWhiteSpace(s[0]) then TrimStart(s[1..]) else s
  }

  function TrimEnd(s: string): string
  {
    if |s| > 0 && IsWhiteSpace(s[|s| - 1]) then TrimEnd(s[..|s| - 1]) else s
  }

  /** `s.trim()`. */
  function Trim(s: string): string
  {
    TrimEnd(TrimStart(s))
  }

  ghost predicate AllWhiteSpace(s: string)
  {
    forall i :: 0 <= i < |s| ==> IsWhiteSpace(s[i])
  }

  lemma {:induction false} TrimStartEmpty(s: string)
    ensures TrimStart(s) == "" <==> AllWhiteSpace(s)
    ensures TrimStart(s) == "" || !IsWhiteSpace(TrimStart(s)[0])
  {
    if |s| > 0 && IsWhiteSpace(s[0]) {
      TrimStartEmpty(s[1..]);
      if AllWhiteSpace(s[1..]) {
        forall i | 0 <= i < |s| ensures IsWhiteSpace(s[i]) {
          if i > 0 { assert s[i] == s[1..][i - 1]; }
        }
      }
    }
  }

  lemma {:induction false} TrimEndEmpty(s: string)
    ensures TrimEnd(s) == "" <==> AllWhiteSpace(s)
  {
    if |s| > 0 && IsWhiteSpace(s[|s| - 1]) {
      var p := s[..|s| - 1];
      TrimEndEmpty(p);
      if AllWhiteSpace(p) {
        forall i | 0 <= i < |s| ensures IsWhiteSpace(s[i]) {
          if i < |s| - 1 { assert s[i] == p[i]; }
        }
      }
    }
  }

  /** A string trims to nothing exactly when every character is white space. */
  lemma TrimEmpty(s: string)
    ensures Trim(s) == "" <==> AllWhiteSpace(s)
  {
    TrimStartEmpty(s);
    TrimEndEmpty(TrimStart(s));
    if TrimStart(s) != "" {
      assert !AllWhiteSpace(TrimStart(s));
    }
  }
}

=== FILE: values.dfy ===
/** JavaScript values as they occur in the mock tables, the pivoted chart rows
    and the records exchanged between server and browser. */
module Values {

  datatype Option<+T> = None | Some(value: T)

  /** A property value. Numbers are integers in this model (the source's
      floating-point unit prices are kept as integer cents); arrays only
      ever hold integers (the monthly sales series). */
  datatype Value = Num(n: int) | Str(s: string) | Series(xs: seq<int>)

  datatype Field = Field(key: string, value: Value)

  /** A plain JavaScript object: its own properties in insertion order. */
  type Row = seq<Field>

  function Keys(r: Row): seq<string>
  {
    seq(|r|, i requires 0 <= i < |r| => r[i].key)
  }

  /** JavaScript objects never hold the same own property twice. */
  ghost predicate UniqueKeys(r: Row)
  {
    forall i, j :: 0 <= i < j < |r| ==> r[i].key != r[j].key
  }

  /** `obj[k]`: the value of own property `k`, or None for `undefined`. */
  function Get(r: Row, k: string): Option<Value>
  {
    if |r| == 0 then None
    else if r[0].key == k then Some(r[0].value)
    else Get(r[1..], k)
  }

  lemma {:induction false} GetPresent(r: Row, k: string)
    ensures Get(r, k).Some? <==> k in Keys(r)
  {
    if |r| > 0 {
      GetPresent(r[1..], k);
      assert Keys(r) == [r[0].key] + Keys(r[1..]);
    }
  }

  /** Defining own property `k`: overwrites in place when `k` is already an
      own property, otherwise appends a new property at the end. */
  function SetOwn(r: Row, k: string, v: Value): (r': Row)
    ensures Get(r', k) == Some(v)
    ensures forall k' :: k' != k ==> Get(r', k') == Get(r, k')
  {
    if |r| == 0 then [Field(k, v)]
    else if r[0].key == k then [Field(k, v)] + r[1..]
    else [r[0]] + SetOwn(r[1..], k, v)
  }

  /** The one key an assignment to a plain object does not define: every
      plain object inherits a `__proto__` accessor, and its setter ignores a
      number or a string. */
  const ProtoKey := "__proto__"

  /** `obj[k] = v` on a plain object: defines own property `k`, except that
      assigning under `__proto__` leaves the own properties as they were. */
  function Put(r: Row, k: string, v: Value): (r': Row)
    ensures k == ProtoKey ==> r' == r
    ensures k != ProtoKey ==> Get(r', k) == Some(v)
    ensures forall k' :: k' != k ==> Get(r', k') == Get(r, k')
  {
    if k == ProtoKey then r else SetOwn(r, k, v)
  }

  lemma KeysCons(f: Field, rest: Row)
    ensures Keys([f] + rest) == [f.key] + Keys(rest)
  {
  }

  /** Defining a property keeps the key order: a new key goes last and an
      existing one stays where it was. */
  lemma {:induction false} SetOwnKeys(r: Row, k: string, v: Value)
    ensures Keys(SetOwn(r, k, v)) == if k in Keys(r) then Keys(r) else Keys(r) + [k]
  {
    if |r| > 0 {
      assert r == [r[0]] + r[1..];
      KeysCons(r[0], r[1..]);
      if r[0].key == k {
        KeysCons(Field(k, v), r[1..]);
      } else {
        SetOwnKeys(r[1..], k, v);
        KeysCons(r[0], SetOwn(r[1..], k, v));
        assert (k in Keys(r)) == (k in Keys(r[1..]));
      }
    }
  }

  /** An assignment keeps the key order: a new key goes last, an existing one
      stays where it was, and `__proto__` adds nothing. */
  lemma PutKeys(r: Row, k: string, v: Value)
    ensures Keys(Put(r, k, v)) == if k == ProtoKey || k in Keys(r) then Keys(r) else Keys(r) + [k]
  {
    if k != ProtoKey {
      SetOwnKeys(r, k, v);
    }
  }

  /** Defining a property never duplicates a key. */
  lemma {:induction false} SetOwnUnique(r: Row, k: string, v: Value)
    requires UniqueKeys(r)
    ensures UniqueKeys(SetOwn(r, k, v))
  {
    if |r| > 0 {
      assert UniqueKeys(r[1..]);
      assert Keys(r) == [r[0].key] + Keys(r[1..]);
      assert r[0].key !in Keys(r[1..]) by {
        forall j | 0 <= j < |r[1..]| ensures Keys(r[1..])[j] != r[0].key {
          assert r[1..][j] == r[j + 1];
        }
      }
      if r[0].key == k {
        ConsUnique(Field(k, v), r[1..]);
      } else {
        SetOwnUnique(r[1..], k, v);
        SetOwnKeys(r[1..], k, v);
        ConsUnique(r[0], SetOwn(r[1..], k, v));
      }
    }
  }

  /** An assignment never duplicates a key. */
  lemma PutUnique(r: Row, k: string, v: Value)
    requires UniqueKeys(r)
    ensures UniqueKeys(Put(r, k, v))
  {
    if k != ProtoKey {
      SetOwnUnique(r, k, v);
    }
  }

  lemma ConsUnique(f: Field, rest: Row)
    ensures UniqueKeys(rest) && f.key !in Keys(rest) ==> UniqueKeys([f] + rest)
  {
    if f.key !in Keys(rest) {
      forall j | 0 <= j < |rest|
        ensures rest[j].key != f.key
      {
        assert rest[j].key == Keys(rest)[j];
      }
    }
  }

  /** JavaScript truthiness of a property read (NaN is not modelled). */
  predicate Truthy(v: Option<Value>)
  {
    match v
    case None => false
    case Some(Num(n)) => n != 0
    case Some(Str(s)) => s != ""
    case Some(Series(_)) => true
  }

  function DigitChar(d: nat): char
    requires d < 10
  {
    "0123456789"[d]
  }

  function NatText(n: nat): string
    decreases n
  {
    if n < 10 then [DigitChar(n)] else NatText(n / 10) + [DigitChar(n % 10)]
  }

  /** `String(n)` for an integer. */
  function IntText(n: int): string
  {
    if n < 0 then "-" + NatText(-n) else NatText(n)
  }

  /** `String(xs)` for an array of integers: the elements joined by commas. */
  function JoinText(xs: seq<int>): string
  {
    if |xs| == 0 then ""
    else if |xs| == 1 then IntText(xs[0])
    else IntText(xs[0]) + "," + JoinText(xs[1..])
  }

  /** `String(v)` for a property read; a missing property reads as "undefined". */
  function ToText(v: Option<Value>): string
  {
    match v
    case None => "undefined"
    case Some(Num(n)) => IntText(n)
    case Some(Str(s)) => s
    case Some(Series(xs)) => JoinText(xs)
  }
}
